=== FILE: README.md ===
# Buenos Aires street learner, modelled in Dafny

The street learner is a map quiz for the City of Buenos Aires. Each game
draws five street names from a local list. In each round the player clicks
where they think the named street is and submits. The click is snapped to the
street's geometry, and the error in kilometres is added to a running score.
The geometry comes from a precomputed document and, failing that, from a
live Overpass query. Three Node scripts support the game:

- one harvests the street names;
- one precomputes the geometries;
- one fetches a single street.

A test component draws a fetched street.

This project models that core as immutable Dafny datatypes and pure
functions, and proves properties of them:

| file | module | models |
|---|---|---|
| `wrappers.dfy` | `Wrappers` | `Option` for `null`/`undefined`, `Result` for a thrown `Error` |
| `decimal.dfy` | `Decimal` | decimal printing of naturals, `String(t / 10)` and `(t / 10).toFixed(1)` for tenths, and their parser |
| `geojson.dfy` | `GeoJson` | GeoJSON values with abstract coordinates, the precomputed document, the `[lon, lat]` ↔ `[lat, lon]` swap |
| `overpass.dfy` | `Overpass` | the Overpass query text, the typed reply, and the normalisation shared by the four copies of the fetcher |
| `scoreboard.dfy` | `ScoreBoard` | `shortenName` under JavaScript `\b` semantics, and the numbered rows |
| `mapview.dfy` | `MapView` | the Feature unwrap, type dispatch and coordinate swap of the street layer; the marker and connector rule |
| `fetch_street_geometry.dfy` | `FetchStreetGeometry` | `getStreetGeometry` of `src/fetchStreetGeometry.js` |
| `test_street_map.dfy` | `TestStreetMap` | `getStreetGeometry` and `convertMultiLineToLatLng` of the test component |
| `generate_street_geometries.dfy` | `GenerateStreetGeometries` | `fetchGeometry` and the skip-existing merge loop of `main` |
| `fetch_street_names.dfy` | `FetchStreetNames` | the length ≥ 10, first-occurrence, duplicate-free name filter |
| `app.dfy` | `App` | the game component: one state record, one function per handler, effect and resolved request, and the event-driven play |

## Modelling choices

**Coordinates and distances**
- Coordinates are kept abstract as mathematical reals; the program only moves them around.
- Distances are non-negative reals in metres.
- `errorKm` is a natural number of tenths of a kilometre: the nearest tenth, with a half rounded up. `(dist / 1000).toFixed(1)` picks exactly that tenth for an exact value.

**Inputs passed as parameters**
- The random shuffle is a parameter, constrained to be a permutation of the pool.
- Turf's `nearestPointOnLine` is a function parameter returning the snapped point and its distance.
- The Overpass service is a function from the query text to a reply.
- The precomputed document arrives as a `DocLoad` value.

**The precomputed document**
- It is a map from name to `Option<GeoJson>`. `None` stands for a falsy JSON value stored under the key.
- Every reader treats `None` like a missing key.

**The game component**
- It is a `State` record.
- The React effects are functions:
  - `EnterRound`: the round effect;
  - `Commit`: runs an effect when one of its dependencies changed.
- `pending` is a multiset of started requests: the precomputed lookups and the live fetches.
- Each request resolves as its own event (`LookupDone`, `LiveDone`), in any order. No stale-request guard is modelled, because the code has none.
- `Offered` says which events the screen makes possible:
  - a button only when the bottom panel shows it;
  - map clicks only when no modal covers the map;
  - a resolution only for a started request.

**Behaviour of the code as written that a player might not expect**
- Picking names takes `min(5, |pool|)` names. Only an empty pool is an error ("No street names found in local JSON."). A short pool is not refused. The later rounds then have an `undefined` name, and the scoreboard's `shortenName` throws on it: `App.Board` is `None`.
- `handleRestart` keeps the picked names and does not draw new ones (`App.RestartKeepsNames`).
- The map's click listener passes only the position, so `handleMapClick`'s `submitted` argument is `undefined`. A click after submitting moves the marker and the dashed connector. The recorded guess and error do not change (`App.ClickAfterSubmitMovesMarker`).
- `handleSubmit` itself has no `submitted` guard; only the hidden Submit button prevents a second entry (`App.SubmitTwiceAppendsTwice`).
- Moving to the next round does not clear the previous street's geometry. A guess submitted before the new lookup resolves is scored against the previous street (`App.SubmitBeforeLookupUsesPreviousGeometry`). A late reply for an earlier round is applied as well.
- The total is the sum of the rounded `errorKm` values, not of the raw distances.
- A precomputed hit does not clear an error message left by an earlier round's live fetch. The header goes on showing that error (`App.LookupHitKeepsEarlierError`).

## Model

| member | source | states |
|---|---|---|
| `Decimal.NatToString` | src/fetchStreetGeometry.js:32 | the decimal text of a status code is non-empty, all digits, with no leading zero |
| `Decimal.ParseNatToString` | src/fetchStreetGeometry.js:32 | reading the printed status code back gives the code: printing loses nothing |
| `Decimal.NatToStringInjective` | src/fetchStreetGeometry.js:32 | two different status codes never print alike |
| `Decimal.TenthsToString` | src/components/ScoreBoard.jsx:12 | `${entry.errorKm}`: a whole number of kilometres is all digits; otherwise the digits, a point and the tenths digit (partner: `Decimal.TenthsRoundTrip`) |
| `Decimal.Fixed1` | src/App.jsx:172-174 | `.toFixed(1)`: always the digits, a point and the tenths digit (partner: `Decimal.Fixed1RoundTrip`) |
| `Decimal.TenthsRoundTrip` | src/components/ScoreBoard.jsx:12 | the error text `${errorKm}` reads back to the recorded tenths |
| `Decimal.Fixed1RoundTrip` | src/App.jsx:172-174 | the one-decimal total reads back to the summed tenths |
| `GeoJson.SwapLines` | src/components/MapView.jsx:52-54 | swapping keeps the number of lines and swaps every vertex in place |
| `GeoJson.SwapLinesInvolutive` | src/components/MapView.jsx:52-54 | swapping twice gives back the original lines |
| `Overpass.Query` | src/fetchStreetGeometry.js:20-25 | the query is the fixed head, the street name verbatim, then the fixed tail `"];` and `out geom;` |
| `Overpass.QueryNamesArea` | src/fetchStreetGeometry.js:22 | every query names the area "Ciudad Autónoma de Buenos Aires" |
| `Overpass.QueryInjective` | src/fetchStreetGeometry.js:20-25 | different street names give different queries |
| `Overpass.Ways` | src/fetchStreetGeometry.js:38 | keeps exactly the way elements with a geometry, each as often as in the reply, in order |
| `Overpass.WaysAppend` | src/components/TestStreetMap.jsx:25 | the filter distributes over concatenation, so the original order is kept |
| `Overpass.Lines` | src/fetchStreetGeometry.js:43-45 | one line per kept way, each built from that way's own points |
| `Overpass.WayLine` | src/generateStreetGeometries.js:40-42 | each point `{lat, lon}` becomes `[lon, lat]`, count and order kept |
| `Overpass.WayLineLosesNothing` | src/fetchStreetGeometry.js:43-45 | the way's points can be read back from its line |
| `Overpass.Normalise` | src/App.jsx:62-75 | transport error → its message; non-ok → prefix + status; no kept way → prefix + name; otherwise at least one line, one per kept way |
| `Overpass.NormalisedLinesMatchWays` | src/components/TestStreetMap.jsx:29-31 | the i-th line reads back to the i-th kept way's points |
| `Overpass.HttpErrorCarriesStatus` | src/fetchStreetGeometry.js:31-33 | the status can be parsed back out of the non-ok error message |
| `FetchStreetGeometry.GetStreetGeometry` | src/fetchStreetGeometry.js:16-53 | for the reply to the street's query: each error case with its exact message, rethrown unchanged; success iff some way has a geometry, giving Turf's feature around the ways' lines |
| `TestStreetMap.GetStreetGeometry` | src/components/TestStreetMap.jsx:6-33 | transport error → its message; non-ok → "Overpass responded with HTTP " + status; no kept way → "No geometry found for street: " + name; success iff some way has a geometry, giving a bare MultiLineString of the kept ways' lines |
| `TestStreetMap.ConvertMultiLineToLatLng` | src/components/TestStreetMap.jsx:36-47 | null or another type → no lines; LineString → one swapped line; MultiLineString → as many lines, each swapped |
| `TestStreetMap.ConverterAgreesWithMapView` | src/components/TestStreetMap.jsx:36-47 | on a bare line geometry the converter and the map component draw the same lines |
| `TestStreetMap.ConverterDropsFeatures` | src/components/TestStreetMap.jsx:46 | the converter does not unwrap a Feature: it yields no line |
| `TestStreetMap.FetchedGeometryConverts` | src/components/TestStreetMap.jsx:25-44 | a fetched geometry converts to one line per kept way, each reading back to that way's points |
| `GenerateStreetGeometries.FetchGeometry` | src/generateStreetGeometries.js:20-52 | non-ok → "Overpass returned " + status; no kept way → "No geometry found for " + name; otherwise a Feature named after the street wrapping the MultiLineString of the kept ways |
| `GenerateStreetGeometries.Fetchable` | src/generateStreetGeometries.js:83-97 | a name is fetchable iff it is in the list and its fetch succeeds |
| `GenerateStreetGeometries.MergeOne` | src/generateStreetGeometries.js:84-97 | a truthy entry is skipped; a success stores the fetched value and writes; a failure changes nothing |
| `GenerateStreetGeometries.MergeOneStep` | src/generateStreetGeometries.js:83-98 | one loop turn keeps the merge invariant, only grows the document, and writes iff it changed it; a write adds one name, and it writes exactly when the set of newly stored names grows by the current one |
| `GenerateStreetGeometries.UpdateGeometries` | src/generateStreetGeometries.js:83-98 | keys: initial keys plus the fetchable names; truthy entries are untouched; fetched entries are stored; nothing else changes; each write stores exactly one name that had no truthy entry, under its fetched geometry, on top of the write before it; there is one write per distinct listed name without a truthy entry whose fetch succeeds; the last write is the final document |
| `GenerateStreetGeometries.StartingDoc` | src/generateStreetGeometries.js:73-80 | a missing file starts from the empty document, an unreadable one aborts |
| `GenerateStreetGeometries.Generate` | src/generateStreetGeometries.js:54-104 | from a missing file nothing is written iff nothing is fetchable, and the last write holds exactly the fetchable names; from an existing file there is one write per new fetchable name, each adds one fetched name to the previous one, every write keeps the truthy entries read, and the last holds the read keys plus the fetchable names; an unparseable file writes nothing |
| `FetchStreetNames.QualifyingNames` | src/fetchStreetNames.js:40-44 | every collected name has at least ten characters |
| `FetchStreetNames.QualifyingNamesSources` | src/fetchStreetNames.js:40-44 | a name is collected iff some element with tags and a name of length ≥ 10 carries it |
| `FetchStreetNames.FirstOccurrences` | src/fetchStreetNames.js:39-46 | the `Set` read back has no duplicates and exactly the inserted names |
| `FetchStreetNames.FirstOccurrencesOrdered` | src/fetchStreetNames.js:46 | names come out in the order of their first insertion |
| `FetchStreetNames.CollectNames` | src/fetchStreetNames.js:39-46 | the loop with its `Set` gives the duplicate-free qualifying names in first-occurrence order |
| `FetchStreetNames.FetchStreetNames` | src/fetchStreetNames.js:31-46 | non-ok → "Overpass responded with HTTP <status> - <statusText>" and no names; success iff the reply is ok |
| `ScoreBoard.ShortenName` | src/components/ScoreBoard.jsx:4-6 | no whole-word "Avenida" is left, and the name never grows |
| `ScoreBoard.ShortenNameSplit` | src/components/ScoreBoard.jsx:5 | split after a non-word character, a name shortens piece by piece, so each whole-word "Avenida" is replaced where it stands and every other character is kept |
| `ScoreBoard.ShortenFromSplit` | src/components/ScoreBoard.jsx:5 | the global scan over a concatenation is the scan over each part, when the first part ends in a non-word character |
| `ScoreBoard.TrailingAvenidaShortened` | src/components/ScoreBoard.jsx:5 | an "Avenida" ending the name after a non-word character becomes "Av." ("Calle Avenida" → "Calle Av.") |
| `ScoreBoard.ShortenNameUnchangedIff` | src/components/ScoreBoard.jsx:5 | a name is returned unchanged iff it holds no whole-word "Avenida" |
| `ScoreBoard.ShortenNameIdempotent` | src/components/ScoreBoard.jsx:5 | shortening twice is shortening once |
| `ScoreBoard.NoAvenidaUnchanged` | src/components/ScoreBoard.jsx:5 | a name without "Avenida" is returned unchanged |
| `ScoreBoard.LeadingAvenidaShortened` | src/components/ScoreBoard.jsx:5 | a leading "Avenida" followed by the end or a non-word character becomes "Av.", and the rest of the name is shortened on its own |
| `ScoreBoard.CleanIffNoWholeWord` | src/components/ScoreBoard.jsx:5 | the replacement's fixed points are exactly the names with no `\bAvenida\b` match |
| `ScoreBoard.ShortenFromClean` | src/components/ScoreBoard.jsx:5 | the replacement leaves no match behind, including ones straddling a replaced "Av." |
| `ScoreBoard.Rows` | src/components/ScoreBoard.jsx:9-20 | one row per entry, in order, numbered 1..n with the shortened name and "<errorKm>km"; the current street adds exactly one row with its error text verbatim |
| `ScoreBoard.RowErrorRecoversEntry` | src/components/ScoreBoard.jsx:12 | a row's error text ends in "km" and reads back to the entry's error |
| `MapView.Unwrap` | src/components/MapView.jsx:39-42 | a Feature is replaced by its geometry, one level only |
| `MapView.LinesToDraw` | src/components/MapView.jsx:34-54 | null or an unsupported type draws nothing; LineString → one line; MultiLineString → as many lines; every vertex swapped to `[lat, lon]` |
| `MapView.DrawnVerticesAreSwapped` | src/components/MapView.jsx:52-54 | the drawn vertex j of line i is the swapped source vertex j of line i |
| `MapView.DrawStreet` | src/components/MapView.jsx:28-58 | the old street layer is replaced by the lines for the new prop; the guess layers are untouched |
| `MapView.DrawGuess` | src/components/MapView.jsx:61-80 | marker iff a click; connector iff a click and a snapped point, joining them |
| `MapView.Render` | src/components/MapView.jsx:28-80 | the street effect runs only when `streetGeometry` changed and then draws the new prop's lines; the guess effect runs only when `userClick` or `closestPoint` changed and then puts the marker on the click; otherwise the layers stay (partner: `MapView.RenderShowsProps`) |
| `MapView.RenderShowsProps` | src/components/MapView.jsx:28-80 | whatever was drawn before, after the effects the layers show exactly the new props |
| `App.NameAt` | src/App.jsx:151 | `streetNames[i]` is defined iff i is in range |
| `App.KmTenths` | src/App.jsx:150 | the recorded error is within half a tenth of a kilometre of the distance, a half rounding up |
| `App.KmTenthsUnique` | src/App.jsx:150 | no other tenth lies in that window |
| `App.SelectNames` | src/App.jsx:29-40 | a non-empty pool gives the first min(5, n) names of the shuffled pool, a sub-multiset of the pool and all of it when n ≤ 5; an empty pool sets "No street names found in local JSON."; loading ends; nothing else changes |
| `App.RoundName` | src/App.jsx:107 | a round has a name to load iff its index is in range and the name is non-empty |
| `App.EnterRound` | src/App.jsx:101-118 | click, snapped point and distance are cleared and submitted is false; the lookup for the round's name is started; geometry and scores are untouched |
| `App.PrecomputedGeometry` | src/App.jsx:87-99 | a geometry iff the document loaded and holds a truthy entry for the name, and then that entry |
| `App.LookupChoosesSource` | src/App.jsx:107-117 | a truthy precomputed entry becomes the geometry and starts no live fetch; otherwise geometry and error are cleared and exactly one live fetch starts |
| `App.LookupHitKeepsEarlierError` | src/App.jsx:109-113 | a precomputed hit shows the geometry but leaves an earlier error message, so the header keeps showing "Error: …" |
| `App.LiveFailureSetsError` | src/App.jsx:62-84 | a failed live fetch sets the error message (transport message, "Overpass returned " + status, or "No geometry found for " + name), leaves the geometry as it was and stops loading |
| `App.LiveSuccessDrawsWays` | src/App.jsx:67-77 | a successful live fetch shows a feature with one line per kept way, each reading back to that way's points |
| `App.HandleMapClick` | src/App.jsx:122-130 | with submitted set nothing changes; otherwise only the click is replaced by the new point |
| `App.MapClick` | src/components/MapView.jsx:21-23 | the map passes only the position, so the handler runs with submitted falsy |
| `App.HandleSubmit` | src/App.jsx:133-154 | no-op without a click or a geometry; otherwise appends exactly one entry (the round's name, the rounded error), keeps the earlier ones, records the snapped point as `{lat, lng}` and sets submitted, and nothing else changes |
| `App.HandleNext` | src/App.jsx:157-164 | the index grows by one below the last round; at the last round it stays and the final modal opens; nothing else changes |
| `App.HandleRestart` | src/App.jsx:166-170 | index 0, no guesses, modal hidden; nothing else changes, so the names are kept |
| `App.ResolveLookup` | src/App.jsx:101-118 | a resolved lookup touches only the geometry, the loading flag, the error message and the pending requests; a hit shows the entry, stops loading and keeps the error; a miss clears geometry and error and starts loading; its own request is consumed once, a miss adds exactly one live fetch, and every other request is kept |
| `App.ResolveLive` | src/App.jsx:42-84 | a resolved live fetch touches only the geometry, the loading flag, the error message and the pending requests, stops loading and consumes its own request; a success shows the kept ways and keeps the error message; a failure keeps the geometry and sets the message |
| `App.StepGuessesAppendOnly` | src/App.jsx:133-170 | Submit leaves the guesses alone or appends exactly one after the earlier ones; Restart empties them; no other event, resolved request included, touches them |
| `App.PlayGuessesAppendOnly` | src/App.jsx:133-170 | over any run without Restart the earlier guesses stay a prefix, and without Submit they do not change |
| `App.TotalTenths` | src/App.jsx:172-173 | the `reduce` over the guesses: zero for none, and at least every recorded error (partners: `App.TotalTenthsAppend`, `App.TotalTenthsBounds`) |
| `App.TotalTenthsAppend` | src/App.jsx:172-174 | the total of a concatenation is the sum of the totals |
| `App.TotalTenthsBounds` | src/App.jsx:172-174 | every recorded error is at most the total, and the total is zero iff every error is |
| `App.TotalScore` | src/App.jsx:172-174 | the displayed total reads back to the sum of the recorded errors |
| `App.CurrentStreetName` | src/App.jsx:175 | never empty; "N/A" exactly when the round's name is missing or empty (or is itself "N/A") |
| `App.MapProps` | src/App.jsx:194-200 | the street and the snapped point reach the map only once submitted; the click always does |
| `App.Entries` | src/App.jsx:201-209 | the scoreboard can render iff every recorded name is defined, one entry per guess |
| `App.Board` | src/App.jsx:201-209 | the ScoreBoard renders iff every recorded name is defined; one row per guess, numbered from 1, under its shortened name with its error in km to one decimal, plus the current street with "?" while not submitted (partner: `App.BoardListsEveryRound`) |
| `App.Commit` | src/App.jsx:42-119 | the round effect's dependency array: it runs exactly when `streetNames` or `currentIndex` changed |
| `App.Mount` | src/App.jsx:29-40 | the mount effect (empty dependency array), then the round effect it triggers: the first min(5, n) shuffled names or the "No street names found" error, round one, no guesses, the intro modal shown, and only the first name's lookup pending (partner: `App.MountEstablishesInv`) |
| `App.Offered` | src/App.jsx:213-285 | what the screen lets the player do: clicks, Submit and Next only with no modal shown; Submit iff not submitted and clicked; Next iff submitted (partner: `App.ControlsMatchHandlers`) |
| `App.Step` | src/App.jsx:213-285 | what each control and each resolved request dispatches: starting the game only hides the intro modal, no event changes the picked names, the intro modal never reopens, and only Submit and Restart touch the guesses (partners: `App.StepPreservesInv`, `App.StepGuessesAppendOnly`) |
| `App.Play` | src/App.jsx:213-285 | any sequence of events keeps the picked names, never reopens the intro modal, and without Submit or Restart leaves the guesses (partners: `App.PlayPreservesInv`, `App.PlayGuessesAppendOnly`) |
| `App.MountEstablishesInv` | src/App.jsx:14-40 | after mounting the invariant holds at round one with no guesses, and the first name's lookup is the only request |
| `App.StepPreservesInv` | src/App.jsx:122-170 | every offered event keeps the invariant and the picked names |
| `App.PlayPreservesInv` | src/App.jsx:122-170 | any sequence of events keeps the invariant and the picked names |
| `App.GameKeepsInv` | src/App.jsx:157-170 | in every game the index stays in [0, 4], each guess names its round, and the final modal comes with all five guesses |
| `App.NextAdvancesOrFinishes` | src/App.jsx:157-164 | Next moves to a fresh round below the last; at the last round only the modal opens |
| `App.RestartKeepsNames` | src/App.jsx:166-170 | restart returns to round one with no guesses and the same names, and starts the first name's lookup again |
| `App.SubmitRecordsRound` | src/App.jsx:150-153 | a submit records the round's name, and the total grows by exactly its rounded error |
| `App.ControlsMatchHandlers` | src/App.jsx:213-232 | Submit is shown iff not submitted and clicked; Next iff submitted; a click is taken whenever no modal covers the map |
| `App.ClickAfterSubmitMovesMarker` | src/components/MapView.jsx:21-23 | after submitting, a click moves the marker and the connector's start; the guess, snapped point and distance stay |
| `App.SubmitTwiceAppendsTwice` | src/App.jsx:133-154 | the handler called twice appends two identical entries |
| `App.SubmitBeforeLookupUsesPreviousGeometry` | src/App.jsx:101-118 | after Next, a click and submit before the lookup resolves score against the previous street but record the new round's name |
| `App.BoardListsEveryRound` | src/App.jsx:201-209 | with five names the scoreboard renders one row per round so far, each guessed row with its round's shortened name |

## Left out

- Turf (`multiLineString`, `point`, `nearestPointOnLine`): a foreign library doing floating-point geodesic maths. The projection is a parameter. `TurfMultiLineString` keeps only the shape of its result: a Feature with empty properties around a MultiLineString.
- Floating point: the sum of the `errorKm` doubles and the IEEE rounding of `toFixed(1)` are replaced by exact sums of tenths. For the small totals of a game they give the same text.
- `errorDistance` keeps the raw distance. Nothing renders it.
- Randomness: the comparator-based shuffle is a permutation passed in as a parameter. How uniform it is does not affect the state machine.
- HTTP, JSON parsing, file reads and writes, `process.argv` and path resolution. Replies and documents are datatypes. A reply whose `elements` is missing or malformed (a thrown `TypeError`) is not modelled. In the precomputed document a truthy entry is assumed to be a GeoJSON object.
- Logging with `console.log` and `console.error`.
- React scheduling:
  - state updates inside one handler or resolved promise are applied together;
  - the round effect runs at commit, after the handler, when the names or the index changed;
  - requests resolve in any order, each at most once.
- Leaflet map creation, tiles, `fitBounds`, colours, the modals' markup and the intro text.
- The header's text and the bottom panel's choice are modelled (`App.Header`, `App.BottomPanel`). They are used by `App.ControlsMatchHandlers` and carry no separate row.
- Overpass.Query: the copies of the query in `src/App.jsx`, `src/components/TestStreetMap.jsx` and `src/generateStreetGeometries.js` differ from `src/fetchStreetGeometry.js` only in their indentation. One template is modelled.
- `src/fetchStreetNames.js`: its query text is not modelled, only its reply.
- JavaScript string length counts UTF-16 code units, and the model counts characters. The two differ only for names outside the Basic Multilingual Plane.
- `src/main.jsx`: icon wiring and root rendering only.
- `src/testFetchStreetGeometry.js`: an ad-hoc script that reads a file, picks randomly and prints.
- The test component's `loadAndFetch`, its Leaflet effects and its random pick: React and Leaflet plumbing around the modelled helpers.
- GenerateStreetGeometries.Fetchable: a name's fetch is a fixed function of the name, so a name counts as fetchable or not once for the whole run. The script calls the network again for a repeated name whose earlier fetch failed, and that retry may succeed; the model gives the retry the same answer.
- GenerateStreetGeometries.UpdateGeometries: for the same reason, a name listed twice whose first fetch failed is never stored on its second visit in the model, while the script may store it then. Apart from that the loop is modelled as written. `fetch` is any function from name to result; `FetchGeometry` applied to the Overpass service is one such function, and the model does not restate the loop for that instance.
- GenerateStreetGeometries.Generate: inherits the same fixed-answer fetch. Its "nothing written iff nothing fetchable" and "the last write holds exactly the fetchable names" treat a name whose fetch failed as failing again when it is listed again.
- Status numbers above 2^53 and the JavaScript spelling of very large numbers: a status is a small natural number.

=== FILE: app.dfy ===
/** The quiz screen: `TOTAL_ROUNDS` street names are drawn from the local
    pool; each round the player clicks where they think the named street
    is, submits, and is scored by the distance from the click to the street.
    The component's state is one immutable record and every handler, effect
    and resolved request is a function from state to state. */
module App {
  import opened Wrappers
  import opened GeoJson
  import opened Overpass
  import Decimal
  import ScoreBoard
  import MapView

  const TOTAL_ROUNDS: nat := 5
  const NO_NAMES := "No street names found in local JSON."
  const NOT_AVAILABLE := "N/A"
  const UNKNOWN_ERROR := "?"
  const LIVE_MESSAGES := Messages("Overpass returned ", "No geometry found for ")

  /** A distance in metres as Turf reports it. */
  type Metres = r: real | r >= 0.0

  /** What `nearestPointOnLine` returns: the snapped `[lon, lat]` position and
      its distance in metres from the clicked point. The projection itself is
      a parameter of the model. */
  datatype Snap = Snap(coordinates: Pair, dist: Metres)

  /** An entry of `guessedStreets`. `name` is `None` when
      `streetNames[currentIndex]` was `undefined`; `errorKm` is in tenths of
      a kilometre. */
  datatype Guess = Guess(name: Option<string>, errorKm: nat)

  /** A geometry request in flight: the lookup in the precomputed document,
      or the live Overpass fetch that a failed lookup starts. */
  datatype Request = Lookup(name: string) | Live(name: string)

  /** The component's state hooks, plus the requests it has started and not
      yet seen resolve. */
  datatype State = State(
    streetNames: seq<string>,
    currentIndex: nat,
    streetGeometry: Option<GeoJson>,
    userClick: Option<LatLng>,
    closestPoint: Option<LatLng>,
    errorDistance: Option<Metres>,
    submitted: bool,
    guessedStreets: seq<Guess>,
    errorMsg: Option<string>,
    loadingNames: bool,
    loadingGeometry: bool,
    showFinalModal: bool,
    showIntroModal: bool,
    pending: multiset<Request>)

  function Min(a: int, b: int): int {
    if a <= b then a else b
  }

  /** The state of the first render. */
  const Initial := State([], 0, None, None, None, None, false, [], None, true, false, false, true, multiset{})

  /** `streetNames[i]`, or `None` for `undefined`. */
  function NameAt(names: seq<string>, i: nat): (r: Option<string>)
    ensures r.Some? <==> i < |names|
    ensures r.Some? ==> r.value == names[i]
  {
    if i < |names| then Some(names[i]) else None
  }

  /** `parseFloat((dist / 1000).toFixed(1))` in tenths of a kilometre: the
      nearest tenth, a half rounded up. */
  function KmTenths(dist: Metres): (t: nat)
    ensures (t as real) * 100.0 - 50.0 <= dist < (t as real) * 100.0 + 50.0
  {
    ((dist + 50.0) / 100.0).Floor
  }

  /** No other number of tenths is within the rounding window. */
  lemma KmTenthsUnique(dist: Metres, t: nat)
    requires (t as real) * 100.0 - 50.0 <= dist < (t as real) * 100.0 + 50.0
    ensures t == KmTenths(dist)
  {
  }

  // ---------------------------------------------------------------------
  // Effects

  /** The mount effect. `shuffled` is the pool after the random sort, which
      only reorders it. */
  function SelectNames(s: State, pool: seq<string>, shuffled: seq<string>): (r: State)
    requires multiset(shuffled) == multiset(pool)
    ensures |pool| > 0 ==> |r.streetNames| == Min(TOTAL_ROUNDS, |pool|)
    ensures |pool| > 0 ==> r.streetNames == shuffled[..|r.streetNames|]
    ensures |pool| > 0 ==> multiset(r.streetNames) <= multiset(pool)
    ensures 0 < |pool| <= TOTAL_ROUNDS ==> multiset(r.streetNames) == multiset(pool)
    ensures |pool| > 0 ==> r.errorMsg == s.errorMsg
    ensures |pool| == 0 ==> r.streetNames == s.streetNames && r.errorMsg == Some(NO_NAMES)
    ensures !r.loadingNames
    ensures r.currentIndex == s.currentIndex && r.guessedStreets == s.guessedStreets
    ensures r.pending == s.pending && r.submitted == s.submitted
    ensures |pool| > 0 ==> r == s.(streetNames := r.streetNames, loadingNames := false)
    ensures |pool| == 0 ==> r == s.(errorMsg := Some(NO_NAMES), loadingNames := false)
  {
    if |pool| > 0 then
      var picked := shuffled[..Min(TOTAL_ROUNDS, |pool|)];
      assert shuffled == picked + shuffled[|picked|..];
      assert |pool| <= TOTAL_ROUNDS ==> picked == shuffled;
      s.(streetNames := picked, loadingNames := false)
    else
      s.(errorMsg := Some(NO_NAMES), loadingNames := false)
  }

  /** `streetNames.length > 0 && streetNames[currentIndex]`: the round has a
      name to look up (a non-empty string). */
  function RoundName(s: State): (r: Option<string>)
    ensures r.Some? <==> s.currentIndex < |s.streetNames| && s.streetNames[s.currentIndex] != ""
    ensures r.Some? ==> r.value == s.streetNames[s.currentIndex]
  {
    if |s.streetNames| > 0 && s.currentIndex < |s.streetNames| && s.streetNames[s.currentIndex] != "" then
      Some(s.streetNames[s.currentIndex])
    else None
  }

  /** The round effect, run when `streetNames` or `currentIndex` changed: the
      guess is cleared and the lookup for the round's name is started. The
      previous round's geometry stays until a request replaces it. */
  function EnterRound(s: State): (r: State)
    ensures r.userClick.None? && r.closestPoint.None? && r.errorDistance.None? && !r.submitted
    ensures r.streetGeometry == s.streetGeometry && r.errorMsg == s.errorMsg
    ensures r.loadingGeometry == s.loadingGeometry
    ensures r.streetNames == s.streetNames && r.currentIndex == s.currentIndex
    ensures r.guessedStreets == s.guessedStreets && r.showFinalModal == s.showFinalModal
    ensures r.showIntroModal == s.showIntroModal && r.loadingNames == s.loadingNames
    ensures RoundName(s).Some? ==> r.pending == s.pending + multiset{Lookup(RoundName(s).value)}
    ensures RoundName(s).None? ==> r.pending == s.pending
  {
    var cleared := s.(userClick := None, closestPoint := None, errorDistance := None, submitted := false);
    match RoundName(s)
    case Some(name) => cleared.(pending := s.pending + multiset{Lookup(name)})
    case None => cleared
  }

  /** The effects of a commit: the round effect runs when one of its
      dependencies changed. */
  function Commit(before: State, after: State): (r: State)
    ensures after.streetNames == before.streetNames && after.currentIndex == before.currentIndex ==> r == after
    ensures after.streetNames != before.streetNames || after.currentIndex != before.currentIndex ==>
      r == EnterRound(after)
  {
    if after.streetNames != before.streetNames || after.currentIndex != before.currentIndex then
      EnterRound(after)
    else after
  }

  /** The first render's effects, then the render caused by the picked names. */
  function Mount(pool: seq<string>, shuffled: seq<string>): (s: State)
    requires multiset(shuffled) == multiset(pool)
    ensures |pool| > 0 ==> s.streetNames == shuffled[..Min(TOTAL_ROUNDS, |pool|)] && s.errorMsg.None?
    ensures |pool| == 0 ==> s.streetNames == [] && s.errorMsg == Some(NO_NAMES)
    ensures s.currentIndex == 0 && s.guessedStreets == [] && !s.submitted && !s.loadingNames
    ensures s.showIntroModal && !s.showFinalModal
    ensures s.streetGeometry.None? && s.userClick.None? && s.closestPoint.None?
    ensures s.pending == if |s.streetNames| > 0 && s.streetNames[0] != "" then multiset{Lookup(s.streetNames[0])} else multiset{}
  {
    var first := EnterRound(Initial);
    Commit(first, SelectNames(first, pool, shuffled))
  }

  // ---------------------------------------------------------------------
  // Geometry requests

  /** What `/streetGeometries.json` gave: unavailable covers a failed fetch,
      a non-ok response and a body that is not JSON. */
  datatype DocLoad = DocUnavailable | DocLoaded(doc: GeometryDoc)

  /** `getPrecomputedGeometry(name)`: the truthy entry, or `null`. */
  function PrecomputedGeometry(load: DocLoad, name: string): (g: Option<GeoJson>)
    ensures g.Some? <==> load.DocLoaded? && HasEntry(load.doc, name)
    ensures g.Some? ==> Some(g.value) == load.doc[name]
  {
    if load.DocLoaded? && HasEntry(load.doc, name) then load.doc[name] else None
  }

  /** The lookup's `.then`: a hit becomes the geometry; a miss starts the
      live fetch, which first clears the geometry and the error. */
  function ResolveLookup(s: State, name: string, load: DocLoad): (r: State)
    ensures r == s.(streetGeometry := r.streetGeometry, loadingGeometry := r.loadingGeometry,
                    errorMsg := r.errorMsg, pending := r.pending)
    ensures r.pending[Lookup(name)] == if s.pending[Lookup(name)] > 0 then s.pending[Lookup(name)] - 1 else 0
    ensures r.pending == s.pending - multiset{Lookup(name)} +
      (if PrecomputedGeometry(load, name).Some? then multiset{} else multiset{Live(name)})
    ensures PrecomputedGeometry(load, name).Some? ==>
      r.errorMsg == s.errorMsg && r.streetGeometry == PrecomputedGeometry(load, name) && !r.loadingGeometry
    ensures PrecomputedGeometry(load, name).None? ==>
      r.errorMsg.None? && r.streetGeometry.None? && r.loadingGeometry
  {
    var rest := s.pending - multiset{Lookup(name)};
    match PrecomputedGeometry(load, name)
    case Some(g) => s.(streetGeometry := Some(g), loadingGeometry := false, pending := rest)
    case None => s.(loadingGeometry := true, streetGeometry := None, errorMsg := None,
                    pending := rest + multiset{Live(name)})
  }

  /** The end of the live `fetchStreetGeometry(name)`: the Turf
      MultiLineString of the kept ways, or the error's message. */
  function ResolveLive(s: State, name: string, response: Response): (r: State)
    ensures r == s.(streetGeometry := r.streetGeometry, loadingGeometry := r.loadingGeometry,
                    errorMsg := r.errorMsg, pending := r.pending)
    ensures !r.loadingGeometry
    ensures r.pending == s.pending - multiset{Live(name)}
    ensures Normalise(name, response, LIVE_MESSAGES).Success? ==>
      r.errorMsg == s.errorMsg &&
      r.streetGeometry == Some(TurfMultiLineString(Normalise(name, response, LIVE_MESSAGES).value))
    ensures Normalise(name, response, LIVE_MESSAGES).Failure? ==>
      r.streetGeometry == s.streetGeometry && r.errorMsg == Some(Normalise(name, response, LIVE_MESSAGES).error)
  {
    var rest := s.pending - multiset{Live(name)};
    match Normalise(name, response, LIVE_MESSAGES)
    case Success(lines) => s.(streetGeometry := Some(TurfMultiLineString(lines)), loadingGeometry := false, pending := rest)
    case Failure(m) => s.(errorMsg := Some(m), loadingGeometry := false, pending := rest)
  }

  /** A truthy precomputed entry is used and no live fetch is started; a
      missing entry or an unavailable document starts exactly one. */
  lemma LookupChoosesSource(s: State, name: string, load: DocLoad)
    requires Lookup(name) in s.pending
    ensures var r := ResolveLookup(s, name, load);
      (load.DocLoaded? && HasEntry(load.doc, name) ==>
        Some(r.streetGeometry.value) == load.doc[name] && !r.loadingGeometry &&
        r.pending[Live(name)] == s.pending[Live(name)]) &&
      (!(load.DocLoaded? && HasEntry(load.doc, name)) ==>
        r.streetGeometry.None? && r.errorMsg.None? && r.loadingGeometry &&
        r.pending[Live(name)] == s.pending[Live(name)] + 1) &&
      r.pending[Lookup(name)] == s.pending[Lookup(name)] - 1
  {
  }

  /** A live fetch that fails sets the error message, leaves the geometry
      as it is (cleared by the lookup's miss, or whatever a later request put
      there meanwhile), and stops the loading state. */
  lemma LiveFailureSetsError(s: State, name: string, response: Response)
    requires response.Unreachable? || !response.ok || |Ways(response.elements)| == 0
    ensures var r := ResolveLive(s, name, response);
      r.streetGeometry == s.streetGeometry && !r.loadingGeometry && r.errorMsg.Some? &&
      (response.Unreachable? ==> r.errorMsg.value == response.message) &&
      (response.Reply? && !response.ok ==> r.errorMsg.value == "Overpass returned " + Decimal.NatToString(response.status)) &&
      (response.Reply? && response.ok ==> r.errorMsg.value == "No geometry found for " + name)
  {
  }

  /** A live fetch that succeeds shows a Turf feature with one line per kept
      way, each vertex as `[lon, lat]`. */
  lemma LiveSuccessDrawsWays(s: State, name: string, response: Response)
    requires response.Reply? && response.ok && |Ways(response.elements)| > 0
    ensures var r := ResolveLive(s, name, response);
      r.streetGeometry.Some? && r.streetGeometry.value.Feature? &&
      r.streetGeometry.value.geometry.MultiLineString? &&
      var lines := r.streetGeometry.value.geometry.lines;
      |lines| == |Ways(response.elements)| &&
      forall i :: 0 <= i < |lines| ==> LinePoints(lines[i]) == Ways(response.elements)[i].geometry.value
  {
    NormalisedLinesMatchWays(name, response, LIVE_MESSAGES);
  }

  /** A precomputed hit does not clear `errorMsg`: an error left by an
      earlier round's live fetch stays in the header over the new round. */
  lemma LookupHitKeepsEarlierError(s: State, name: string, load: DocLoad)
    requires !s.loadingNames && s.errorMsg.Some? && s.errorMsg.value != ""
    requires load.DocLoaded? && HasEntry(load.doc, name)
    ensures var r := ResolveLookup(s, name, load);
      r.streetGeometry.Some? && !r.loadingGeometry &&
      Header(r) == "Error: " + s.errorMsg.value
  {
  }

  // ---------------------------------------------------------------------
  // Handlers

  /** `handleMapClick(latlng, submitted)`. */
  function HandleMapClick(s: State, latlng: LatLng, submitted: bool): (r: State)
    ensures submitted ==> r == s
    ensures !submitted ==> r.userClick == Some(latlng) && r == s.(userClick := r.userClick)
  {
    if submitted then s else s.(userClick := Some(latlng))
  }

  /** The map's click listener passes only the position, so the handler's
      `submitted` is `undefined`, which is falsy. */
  function MapClick(s: State, latlng: LatLng): (r: State)
    ensures r == HandleMapClick(s, latlng, false)
  {
    HandleMapClick(s, latlng, false)
  }

  /** `handleSubmit()`, with Turf's `nearestPointOnLine` as `nearest`: the
      clicked point is passed as `[lng, lat]`, the snapped point comes back
      as `[lon, lat]`. */
  function HandleSubmit(s: State, nearest: (GeoJson, Pair) -> Snap): (r: State)
    ensures s.userClick.None? || s.streetGeometry.None? ==> r == s
    ensures s.userClick.Some? && s.streetGeometry.Some? ==>
      var snap := nearest(s.streetGeometry.value, Pair(s.userClick.value.lng, s.userClick.value.lat));
      && r.submitted
      && |r.guessedStreets| == |s.guessedStreets| + 1
      && r.guessedStreets[..|s.guessedStreets|] == s.guessedStreets
      && r.guessedStreets[|s.guessedStreets|] == Guess(NameAt(s.streetNames, s.currentIndex), KmTenths(snap.dist))
      && r.closestPoint == Some(LatLng(snap.coordinates.second, snap.coordinates.first))
      && r.errorDistance == Some(snap.dist)
      && r == s.(closestPoint := r.closestPoint, errorDistance := r.errorDistance,
                 guessedStreets := r.guessedStreets, submitted := true)
  {
    if s.userClick.None? || s.streetGeometry.None? then s
    else
      var click := s.userClick.value;
      var snap := nearest(s.streetGeometry.value, Pair(click.lng, click.lat));
      var entry := Guess(NameAt(s.streetNames, s.currentIndex), KmTenths(snap.dist));
      assert (s.guessedStreets + [entry])[..|s.guessedStreets|] == s.guessedStreets;
      s.(closestPoint := Some(LatLng(snap.coordinates.second, snap.coordinates.first)),
         errorDistance := Some(snap.dist),
         guessedStreets := s.guessedStreets + [entry],
         submitted := true)
  }

  /** `handleNext()`. */
  function HandleNext(s: State): (r: State)
    ensures s.currentIndex < TOTAL_ROUNDS - 1 ==> r == s.(currentIndex := s.currentIndex + 1)
    ensures s.currentIndex >= TOTAL_ROUNDS - 1 ==> r == s.(showFinalModal := true)
  {
    if s.currentIndex < TOTAL_ROUNDS - 1 then s.(currentIndex := s.currentIndex + 1)
    else s.(showFinalModal := true)
  }

  /** `handleRestart()`: the picked names are kept. */
  function HandleRestart(s: State): (r: State)
    ensures r.currentIndex == 0 && r.guessedStreets == [] && !r.showFinalModal
    ensures r == s.(currentIndex := 0, guessedStreets := [], showFinalModal := false)
  {
    s.(currentIndex := 0, guessedStreets := [], showFinalModal := false)
  }

  // ---------------------------------------------------------------------
  // Rendering

  /** The sum of the recorded errors, in tenths. */
  function TotalTenths(guesses: seq<Guess>): (t: nat)
    ensures |guesses| == 0 ==> t == 0
    ensures forall i :: 0 <= i < |guesses| ==> guesses[i].errorKm <= t
    decreases |guesses|
  {
    if |guesses| == 0 then 0 else TotalTenths(guesses[..|guesses| - 1]) + guesses[|guesses| - 1].errorKm
  }

  lemma {:induction false} TotalTenthsAppend(a: seq<Guess>, b: seq<Guess>)
    ensures TotalTenths(a + b) == TotalTenths(a) + TotalTenths(b)
    decreases |b|
  {
    if |b| > 0 {
      assert (a + b)[..|a + b| - 1] == a + b[..|b| - 1];
      TotalTenthsAppend(a, b[..|b| - 1]);
    } else {
      assert a + b == a;
    }
  }

  /** Each recorded error counts once towards the total, whatever the order. */
  lemma {:induction false} TotalTenthsBounds(guesses: seq<Guess>)
    ensures forall i :: 0 <= i < |guesses| ==> guesses[i].errorKm <= TotalTenths(guesses)
    ensures (forall i :: 0 <= i < |guesses| ==> guesses[i].errorKm == 0) <==> TotalTenths(guesses) == 0
    decreases |guesses|
  {
    if |guesses| > 0 {
      var init := guesses[..|guesses| - 1];
      TotalTenthsBounds(init);
      assert forall i :: 0 <= i < |init| ==> init[i] == guesses[i];
    }
  }

  /** `totalScore`: the sum, with one decimal. */
  function TotalScore(s: State): (text: string)
    ensures Decimal.ParseTenths(text) == Some(TotalTenths(s.guessedStreets))
  {
    Decimal.Fixed1RoundTrip(TotalTenths(s.guessedStreets));
    Decimal.Fixed1(TotalTenths(s.guessedStreets))
  }

  /** `streetNames[currentIndex] || "N/A"`. */
  function CurrentStreetName(s: State): (name: string)
    ensures name != ""
    ensures name == NOT_AVAILABLE <==> s.currentIndex >= |s.streetNames| || s.streetNames[s.currentIndex] in {"", NOT_AVAILABLE}
    ensures name != NOT_AVAILABLE ==> name == s.streetNames[s.currentIndex]
  {
    if s.currentIndex < |s.streetNames| && s.streetNames[s.currentIndex] != "" then s.streetNames[s.currentIndex]
    else NOT_AVAILABLE
  }

  /** The text of the top panel. */
  function Header(s: State): (text: string)
    ensures s.loadingNames ==> text == "Loading street names..."
    ensures !s.loadingNames && s.errorMsg.Some? && s.errorMsg.value != "" ==> text == "Error: " + s.errorMsg.value
  {
    if s.loadingNames then "Loading street names..."
    else if s.errorMsg.Some? && s.errorMsg.value != "" then "Error: " + s.errorMsg.value
    else if s.loadingGeometry then "Loading geometry..."
    else CurrentStreetName(s)
  }

  datatype Control = NextButton | SubmitButton | ClickPrompt

  /** What the bottom panel offers. */
  function BottomPanel(s: State): Control {
    if s.submitted then NextButton
    else if s.userClick.Some? then SubmitButton
    else ClickPrompt
  }

  /** The props given to the map: the street and the snapped point only once
      the guess is submitted. */
  function MapProps(s: State): (p: MapView.Props)
    ensures p.userClick == s.userClick
    ensures !s.submitted ==> p.streetGeometry.None? && p.closestPoint.None?
    ensures s.submitted ==> p.streetGeometry == s.streetGeometry && p.closestPoint == s.closestPoint
  {
    MapView.Props(if s.submitted then s.streetGeometry else None, s.userClick,
                  if s.submitted then s.closestPoint else None)
  }

  /** The scoreboard entries; `None` when some name is `undefined`, on
      which `shortenName` throws. */
  function Entries(guesses: seq<Guess>): (r: Option<seq<ScoreBoard.Entry>>)
    ensures r.Some? <==> forall i :: 0 <= i < |guesses| ==> guesses[i].name.Some?
    ensures r.Some? ==> |r.value| == |guesses|
    ensures r.Some? ==> forall i :: 0 <= i < |guesses| ==>
      r.value[i] == ScoreBoard.Entry(guesses[i].name.value, guesses[i].errorKm)
    decreases |guesses|
  {
    if |guesses| == 0 then Some([])
    else
      var init := guesses[..|guesses| - 1];
      var last := guesses[|guesses| - 1];
      match Entries(init)
      case None => None
      case Some(es) =>
        match last.name
        case None => None
        case Some(n) => Some(es + [ScoreBoard.Entry(n, last.errorKm)])
  }

  /** The scoreboard's rows: the current round, with its error shown as
      `?`, is listed while it is not submitted (its name is never falsy). */
  function Board(s: State): (rows: Option<seq<ScoreBoard.Row>>)
    ensures rows.Some? <==> forall i :: 0 <= i < |s.guessedStreets| ==> s.guessedStreets[i].name.Some?
    ensures rows.Some? ==> |rows.value| == |s.guessedStreets| + (if s.submitted then 0 else 1)
    ensures rows.Some? ==> forall i :: 0 <= i < |s.guessedStreets| ==>
      rows.value[i].name == ScoreBoard.ShortenName(s.guessedStreets[i].name.value) &&
      rows.value[i].error == Decimal.TenthsToString(s.guessedStreets[i].errorKm) + "km"
    ensures rows.Some? ==> forall i :: 0 <= i < |rows.value| ==> rows.value[i].index == i + 1
    ensures rows.Some? && !s.submitted ==>
      rows.value[|s.guessedStreets|].name == ScoreBoard.ShortenName(CurrentStreetName(s)) &&
      rows.value[|s.guessedStreets|].error == UNKNOWN_ERROR
  {
    match Entries(s.guessedStreets)
    case None => None
    case Some(es) =>
      var current := if !s.submitted then Some(ScoreBoard.Current(CurrentStreetName(s), UNKNOWN_ERROR)) else None;
      Some(ScoreBoard.Rows(es, current))
  }

  // ---------------------------------------------------------------------
  // Play

  datatype Event =
    | StartGame
    | Click(latlng: LatLng)
    | Submit
    | Next
    | Restart
    | LookupDone(name: string, load: DocLoad)
    | LiveDone(name: string, response: Response)

  /** Whether the event can happen: a button exists only when the panel
      shows it, the modals cover the map, and a request resolves only when
      it was started. */
  predicate Offered(s: State, e: Event)
    ensures Offered(s, e) && (e.Click? || e.Submit? || e.Next?) ==> !s.showIntroModal && !s.showFinalModal
    ensures e.Submit? ==> (Offered(s, e) <==> !s.showIntroModal && !s.showFinalModal && !s.submitted && s.userClick.Some?)
    ensures e.Next? ==> (Offered(s, e) <==> !s.showIntroModal && !s.showFinalModal && s.submitted)
  {
    match e
    case StartGame => s.showIntroModal
    case Click(_) => !s.showIntroModal && !s.showFinalModal
    case Submit => !s.showIntroModal && !s.showFinalModal && BottomPanel(s) == SubmitButton
    case Next => !s.showIntroModal && !s.showFinalModal && BottomPanel(s) == NextButton
    case Restart => s.showFinalModal
    case LookupDone(name, _) => Lookup(name) in s.pending
    case LiveDone(name, _) => Live(name) in s.pending
  }

  function Step(s: State, e: Event, nearest: (GeoJson, Pair) -> Snap): (r: State)
    ensures r.streetNames == s.streetNames
    ensures r.showIntroModal ==> s.showIntroModal
    ensures !e.Submit? && !e.Restart? ==> r.guessedStreets == s.guessedStreets
    ensures e.StartGame? ==> r == s.(showIntroModal := false)
  {
    match e
    case StartGame => s.(showIntroModal := false)
    case Click(latlng) => MapClick(s, latlng)
    case Submit => HandleSubmit(s, nearest)
    case Next => Commit(s, HandleNext(s))
    case Restart => Commit(s, HandleRestart(s))
    case LookupDone(name, load) => ResolveLookup(s, name, load)
    case LiveDone(name, response) => ResolveLive(s, name, response)
  }

  /** The events in order; one that is not offered when it comes changes
      nothing. */
  function Play(s: State, events: seq<Event>, nearest: (GeoJson, Pair) -> Snap): (r: State)
    ensures r.streetNames == s.streetNames
    ensures r.showIntroModal ==> s.showIntroModal
    ensures (forall i :: 0 <= i < |events| ==> !events[i].Submit? && !events[i].Restart?) ==>
      r.guessedStreets == s.guessedStreets
    decreases |events|
  {
    if |events| == 0 then s
    else
      var next := if Offered(s, events[0]) then Step(s, events[0], nearest) else s;
      Play(next, events[1..], nearest)
  }

  /** What holds between events once the names are picked. */
  predicate Inv(s: State) {
    && !s.loadingNames
    && s.currentIndex < TOTAL_ROUNDS
    && |s.streetNames| <= TOTAL_ROUNDS
    && (s.showFinalModal ==> s.currentIndex == TOTAL_ROUNDS - 1 && s.submitted)
    && (s.submitted ==> s.userClick.Some? && s.closestPoint.Some? && s.errorDistance.Some?)
    && |s.guessedStreets| == s.currentIndex + (if s.submitted then 1 else 0)
    && forall i :: 0 <= i < |s.guessedStreets| ==> s.guessedStreets[i].name == NameAt(s.streetNames, i)
  }

  lemma MountEstablishesInv(pool: seq<string>, shuffled: seq<string>)
    requires multiset(shuffled) == multiset(pool)
    ensures var s := Mount(pool, shuffled);
      Inv(s) && s.currentIndex == 0 && s.guessedStreets == [] && !s.submitted && s.showIntroModal &&
      (|pool| > 0 ==> |s.streetNames| == Min(TOTAL_ROUNDS, |pool|) && multiset(s.streetNames) <= multiset(pool) &&
                      (s.streetNames[0] != "" ==> s.pending == multiset{Lookup(s.streetNames[0])})) &&
      (|pool| == 0 ==> s.errorMsg == Some(NO_NAMES) && s.pending == multiset{})
  {
  }

  lemma StepPreservesInv(s: State, e: Event, nearest: (GeoJson, Pair) -> Snap)
    requires Inv(s) && Offered(s, e)
    ensures Inv(Step(s, e, nearest))
    ensures Step(s, e, nearest).streetNames == s.streetNames
  {
    match e
    case Submit =>
      var r := HandleSubmit(s, nearest);
      if s.streetGeometry.Some? {
        forall i | 0 <= i < |r.guessedStreets|
          ensures r.guessedStreets[i].name == NameAt(r.streetNames, i)
        {
          if i < |s.guessedStreets| {
            assert r.guessedStreets[i] == r.guessedStreets[..|s.guessedStreets|][i];
          }
        }
      }
    case _ =>
  }

  lemma {:induction false} PlayPreservesInv(s: State, events: seq<Event>, nearest: (GeoJson, Pair) -> Snap)
    requires Inv(s)
    ensures Inv(Play(s, events, nearest))
    ensures Play(s, events, nearest).streetNames == s.streetNames
    decreases |events|
  {
    if |events| > 0 {
      var next := if Offered(s, events[0]) then Step(s, events[0], nearest) else s;
      if Offered(s, events[0]) {
        StepPreservesInv(s, events[0], nearest);
      }
      PlayPreservesInv(next, events[1..], nearest);
    }
  }

  /** `guessedStreets` only grows by a submit and is only emptied by a
      restart: every other event leaves the recorded guesses as they were. */
  lemma StepGuessesAppendOnly(s: State, e: Event, nearest: (GeoJson, Pair) -> Snap)
    ensures var r := Step(s, e, nearest);
      && (e.Submit? ==>
            (r.guessedStreets == s.guessedStreets ||
             (|r.guessedStreets| == |s.guessedStreets| + 1 && r.guessedStreets[..|s.guessedStreets|] == s.guessedStreets)))
      && (e.Restart? ==> r.guessedStreets == [])
      && (!e.Submit? && !e.Restart? ==> r.guessedStreets == s.guessedStreets)
  {
  }

  /** Without a restart, the guesses recorded before any run of events are a
      prefix of those recorded after it, and no entry is ever rewritten. */
  lemma {:induction false} PlayGuessesAppendOnly(s: State, events: seq<Event>, nearest: (GeoJson, Pair) -> Snap)
    requires forall i :: 0 <= i < |events| ==> !events[i].Restart?
    ensures s.guessedStreets <= Play(s, events, nearest).guessedStreets
    ensures (forall i :: 0 <= i < |events| ==> !events[i].Submit?) ==>
      Play(s, events, nearest).guessedStreets == s.guessedStreets
    decreases |events|
  {
    if |events| > 0 {
      var next := if Offered(s, events[0]) then Step(s, events[0], nearest) else s;
      StepGuessesAppendOnly(s, events[0], nearest);
      assert s.guessedStreets <= next.guessedStreets;
      PlayGuessesAppendOnly(next, events[1..], nearest);
    }
  }

  /** Every game from the mount on keeps the invariant and the picked names:
      the index stays within the rounds, the final modal comes with all five
      guesses, and each guess names the round it was made in. */
  lemma GameKeepsInv(pool: seq<string>, shuffled: seq<string>, events: seq<Event>, nearest: (GeoJson, Pair) -> Snap)
    requires multiset(shuffled) == multiset(pool)
    ensures var s := Play(Mount(pool, shuffled), events, nearest);
      Inv(s) && s.streetNames == Mount(pool, shuffled).streetNames &&
      (s.showFinalModal ==> |s.guessedStreets| == TOTAL_ROUNDS)
  {
    MountEstablishesInv(pool, shuffled);
    PlayPreservesInv(Mount(pool, shuffled), events, nearest);
  }

  /** `handleNext` moves forward until the last round and then opens the
      final modal; the round effect clears the guess on every move. */
  lemma NextAdvancesOrFinishes(s: State, nearest: (GeoJson, Pair) -> Snap)
    requires Inv(s) && Offered(s, Next)
    ensures var r := Step(s, Next, nearest);
      (s.currentIndex < TOTAL_ROUNDS - 1 ==>
        r.currentIndex == s.currentIndex + 1 && !r.submitted && r.userClick.None? && r.closestPoint.None? &&
        r.streetGeometry == s.streetGeometry && r.guessedStreets == s.guessedStreets) &&
      (s.currentIndex == TOTAL_ROUNDS - 1 ==>
        r.currentIndex == s.currentIndex && r.showFinalModal && r == s.(showFinalModal := true))
  {
  }

  /** Restarting returns to round one with no guesses and the same names,
      and starts the lookup for the first name again. */
  lemma RestartKeepsNames(s: State, nearest: (GeoJson, Pair) -> Snap)
    requires Inv(s) && Offered(s, Restart)
    ensures var r := Step(s, Restart, nearest);
      r.streetNames == s.streetNames && r.currentIndex == 0 && r.guessedStreets == [] &&
      !r.showFinalModal && !r.submitted && r.userClick.None? &&
      (RoundName(r).Some? ==> r.pending == s.pending + multiset{Lookup(s.streetNames[0])})
  {
  }

  /** A submit in a state with a click and a geometry records the round's
      name and its rounded error, and adds exactly that to the total. */
  lemma SubmitRecordsRound(s: State, nearest: (GeoJson, Pair) -> Snap)
    requires Inv(s) && Offered(s, Submit) && s.streetGeometry.Some?
    ensures var r := Step(s, Submit, nearest);
      var snap := nearest(s.streetGeometry.value, Pair(s.userClick.value.lng, s.userClick.value.lat));
      r.submitted && |r.guessedStreets| == s.currentIndex + 1 &&
      r.guessedStreets[s.currentIndex].name == NameAt(s.streetNames, s.currentIndex) &&
      TotalTenths(r.guessedStreets) == TotalTenths(s.guessedStreets) + KmTenths(snap.dist)
  {
    var r := HandleSubmit(s, nearest);
    assert r.guessedStreets == s.guessedStreets + [r.guessedStreets[|s.guessedStreets|]];
    TotalTenthsAppend(s.guessedStreets, [r.guessedStreets[|s.guessedStreets|]]);
  }

  /** The Submit button is shown exactly when a submit can add a guess
      (given a geometry), and a click is taken whenever no modal covers the
      map. */
  lemma ControlsMatchHandlers(s: State, latlng: LatLng, nearest: (GeoJson, Pair) -> Snap)
    requires Inv(s) && !s.showIntroModal && !s.showFinalModal
    ensures Offered(s, Submit) <==> !s.submitted && s.userClick.Some?
    ensures Offered(s, Next) <==> s.submitted
    ensures Step(s, Click(latlng), nearest).userClick == Some(latlng)
  {
  }

  // ---------------------------------------------------------------------
  // Behaviour as written

  /** Because the click listener drops `submitted`, a click after submitting
      still moves the marker: the connector then joins the new click to the
      old snapped point while the recorded guess and its error stay. */
  lemma ClickAfterSubmitMovesMarker(s: State, latlng: LatLng, nearest: (GeoJson, Pair) -> Snap)
    requires Inv(s) && s.submitted && Offered(s, Click(latlng))
    ensures var r := Step(s, Click(latlng), nearest);
      r.userClick == Some(latlng) && r.submitted && r.closestPoint == s.closestPoint &&
      r.guessedStreets == s.guessedStreets && r.errorDistance == s.errorDistance &&
      var layers := MapView.DrawGuess(MapView.Layers(None, None, None), MapProps(r).userClick, MapProps(r).closestPoint);
      layers.marker == Some(latlng) && layers.connector == Some(MapView.Connector(latlng, s.closestPoint.value))
  {
  }

  /** `handleSubmit` has no `submitted` guard: called again, it appends a
      second entry for the same round. Only the hidden button prevents it. */
  lemma SubmitTwiceAppendsTwice(s: State, nearest: (GeoJson, Pair) -> Snap)
    requires s.userClick.Some? && s.streetGeometry.Some?
    ensures var once := HandleSubmit(s, nearest);
      var twice := HandleSubmit(once, nearest);
      |twice.guessedStreets| == |s.guessedStreets| + 2 &&
      twice.guessedStreets[|s.guessedStreets|] == twice.guessedStreets[|s.guessedStreets| + 1]
  {
    var once := HandleSubmit(s, nearest);
    assert once.guessedStreets[..|s.guessedStreets|] == s.guessedStreets;
    var twice := HandleSubmit(once, nearest);
    assert twice.guessedStreets[..|once.guessedStreets|] == once.guessedStreets;
    assert twice.guessedStreets[|s.guessedStreets|] == twice.guessedStreets[..|once.guessedStreets|][|s.guessedStreets|];
  }

  /** Moving to the next round keeps the previous street's geometry until the
      new lookup resolves, so a click and submit made before then are scored
      against the previous street while recording the new round's name. */
  lemma SubmitBeforeLookupUsesPreviousGeometry(s: State, latlng: LatLng, nearest: (GeoJson, Pair) -> Snap)
    requires Inv(s) && Offered(s, Next) && s.currentIndex < TOTAL_ROUNDS - 1 && s.streetGeometry.Some?
    ensures var moved := Step(s, Next, nearest);
      var clicked := Step(moved, Click(latlng), nearest);
      var r := Step(clicked, Submit, nearest);
      Offered(clicked, Submit) &&
      r.guessedStreets == s.guessedStreets +
        [Guess(NameAt(s.streetNames, s.currentIndex + 1), KmTenths(nearest(s.streetGeometry.value, Pair(latlng.lng, latlng.lat)).dist))]
  {
    var moved := Step(s, Next, nearest);
    var clicked := Step(moved, Click(latlng), nearest);
    var r := HandleSubmit(clicked, nearest);
    assert r.guessedStreets == r.guessedStreets[..|clicked.guessedStreets|] + [r.guessedStreets[|clicked.guessedStreets|]];
  }

  /** With a pool of at least five names every round has a name, and the
      scoreboard lists one row per round so far: the guessed ones and, until
      it is submitted, the current one. */
  lemma BoardListsEveryRound(s: State)
    requires Inv(s) && |s.streetNames| == TOTAL_ROUNDS
    ensures Board(s).Some?
    ensures |Board(s).value| == s.currentIndex + 1
    ensures forall i :: 0 <= i < |s.guessedStreets| ==>
      Board(s).value[i].name == ScoreBoard.ShortenName(s.streetNames[i])
  {
  }
}

=== FILE: decimal.dfy ===
/** Decimal text of the numbers the program prints: HTTP status codes
    (`${res.status}`), a per-round error in kilometres (`${entry.errorKm}`)
    and the total score (`total.toFixed(1)`). Kilometres are held as a
    natural number of tenths, so every printed value is exact. */
module Decimal {
  import opened Wrappers

  predicate IsDigit(c: char) {
    '0' <= c <= '9'
  }

  function DigitChar(d: nat): (c: char)
    requires d < 10
    ensures IsDigit(c)
  {
    "0123456789"[d]
  }

  function DigitValue(c: char): (d: nat)
    requires IsDigit(c)
    ensures d < 10
  {
    (c as int - '0' as int) as nat
  }

  lemma DigitRoundTrip(d: nat)
    requires d < 10
    ensures DigitValue(DigitChar(d)) == d
  {
    assert "0123456789"[d] as int - '0' as int == d by {
      assert "0123456789"[d] as int == '0' as int + d;
    }
  }

  predicate AllDigits(s: string) {
    forall i :: 0 <= i < |s| ==> IsDigit(s[i])
  }

  /** The shortest decimal numeral of `n` (JavaScript's `String(n)` for a
      non-negative integer below 1e21). */
  function NatToString(n: nat): (r: string)
    ensures |r| >= 1 && AllDigits(r)
    ensures |r| > 1 ==> r[0] != '0'
    decreases n
  {
    if n < 10 then [DigitChar(n)] else NatToString(n / 10) + [DigitChar(n % 10)]
  }

  /** Reads a string of digits as a number (the inverse of `NatToString`). */
  function ParseNat(s: string): nat
    requires AllDigits(s)
    decreases |s|
  {
    if |s| == 0 then 0 else ParseNat(s[..|s| - 1]) * 10 + DigitValue(s[|s| - 1])
  }

  lemma {:induction false} ParseNatToString(n: nat)
    ensures ParseNat(NatToString(n)) == n
    decreases n
  {
    var r := NatToString(n);
    if n < 10 {
      DigitRoundTrip(n);
    } else {
      var a := NatToString(n / 10);
      assert r == a + [DigitChar(n % 10)];
      assert r[..|r| - 1] == a;
      ParseNatToString(n / 10);
      DigitRoundTrip(n % 10);
    }
  }

  /** Distinct numbers are printed differently. */
  lemma NatToStringInjective(a: nat, b: nat)
    requires NatToString(a) == NatToString(b)
    ensures a == b
  {
    ParseNatToString(a);
    ParseNatToString(b);
  }

  /** JavaScript's `String(t / 10)` for a number of tenths: the integer part,
      then a point and the tenths digit only when that digit is not zero
      (`2` for 2.0, `1.5` for 1.5). */
  function TenthsToString(t: nat): (r: string)
    ensures |r| >= 1
    ensures t % 10 == 0 ==> AllDigits(r)
    ensures t % 10 != 0 ==> |r| >= 3 && r[|r| - 2] == '.' && AllDigits(r[..|r| - 2]) && r[|r| - 1] == DigitChar(t % 10)
  {
    if t % 10 == 0 then NatToString(t / 10)
    else NatToString(t / 10) + "." + [DigitChar(t % 10)]
  }

  /** JavaScript's `(t / 10).toFixed(1)`: always exactly one decimal. */
  function Fixed1(t: nat): (r: string)
    ensures |r| >= 3 && r[|r| - 2] == '.'
    ensures AllDigits(r[..|r| - 2]) && r[|r| - 1] == DigitChar(t % 10)
  {
    NatToString(t / 10) + "." + [DigitChar(t % 10)]
  }

  /** Reads a numeral with at most one decimal, as printed by `TenthsToString`
      or `Fixed1`, back into tenths. */
  function ParseTenths(s: string): Option<nat> {
    if |s| >= 3 && s[|s| - 2] == '.' && AllDigits(s[..|s| - 2]) && IsDigit(s[|s| - 1]) then
      Some(ParseNat(s[..|s| - 2]) * 10 + DigitValue(s[|s| - 1]))
    else if |s| >= 1 && AllDigits(s) then
      Some(ParseNat(s) * 10)
    else
      None
  }

  lemma TenthsRoundTrip(t: nat)
    ensures ParseTenths(TenthsToString(t)) == Some(t)
  {
    if t % 10 == 0 {
      WholeTenthsRoundTrip(t);
    } else {
      assert TenthsToString(t) == Fixed1(t);
      Fixed1RoundTrip(t);
    }
  }

  /** A whole number of kilometres is printed without a decimal point. */
  lemma WholeTenthsRoundTrip(t: nat)
    requires t % 10 == 0
    ensures ParseTenths(NatToString(t / 10)) == Some(t)
  {
    var whole := NatToString(t / 10);
    ParseNatToString(t / 10);
    if |whole| >= 3 {
      assert IsDigit(whole[|whole| - 2]);
    }
    assert (t / 10) * 10 == t;
  }

  lemma Fixed1RoundTrip(t: nat)
    ensures ParseTenths(Fixed1(t)) == Some(t)
  {
    var whole := NatToString(t / 10);
    var r := Fixed1(t);
    assert r == whole + "." + [DigitChar(t % 10)];
    assert r[..|r| - 2] == whole;
    ParseNatToString(t / 10);
    DigitRoundTrip(t % 10);
  }
}

=== FILE: fetch_street_geometry.dfy ===
/** The stand-alone geometry fetcher: the Overpass reply for a street,
    normalised and wrapped by Turf's `multiLineString`; any error is
    rethrown unchanged after logging. */
module FetchStreetGeometry {
  import opened Wrappers
  import opened GeoJson
  import opened Overpass
  import Decimal

  const MESSAGES := Messages("Overpass responded with HTTP ", "No geometry found for street: ")

  /** `getStreetGeometry(streetName)`, with the Overpass service as the
      function from a posted query to its response. */
  function GetStreetGeometry(streetName: string, overpass: string -> Response): (r: Result<GeoJson, string>)
    ensures var response := overpass(Query(streetName));
      && (response.Unreachable? ==> r == Failure(response.message))
      && (response.Reply? && !response.ok ==>
            r == Failure("Overpass responded with HTTP " + Decimal.NatToString(response.status)))
      && (response.Reply? && response.ok && |Ways(response.elements)| == 0 ==>
            r == Failure("No geometry found for street: " + streetName))
      && (r.Success? <==> response.Reply? && response.ok && |Ways(response.elements)| > 0)
      && (r.Success? ==> r.value == TurfMultiLineString(Lines(Ways(response.elements))))
  {
    match Normalise(streetName, overpass(Query(streetName)), MESSAGES)
    case Success(lines) => Success(TurfMultiLineString(lines))
    case Failure(e) => Failure(e)
  }
}

=== FILE: fetch_street_names.dfy ===
/** The name-harvesting script: from the Overpass reply for all named
    highways, the distinct names of at least ten characters, in the order
    they first appear (the insertion order of a JavaScript `Set`). */
module FetchStreetNames {
  import opened Wrappers
  import opened Overpass
  import Decimal

  const MIN_NAME_LENGTH := 10

  /** `el.tags && el.tags.name && el.tags.name.length >= 10`. */
  predicate Qualifies(e: Element) {
    e.tags.Some? && e.tags.value.name.Some? && |e.tags.value.name.value| >= MIN_NAME_LENGTH
  }

  /** The names of the qualifying elements, in order, repetitions included. */
  function QualifyingNames(elements: seq<Element>): (names: seq<string>)
    ensures forall n :: n in names ==> |n| >= MIN_NAME_LENGTH
    decreases |elements|
  {
    if |elements| == 0 then []
    else
      var last := elements[|elements| - 1];
      QualifyingNames(elements[..|elements| - 1]) + (if Qualifies(last) then [last.tags.value.name.value] else [])
  }

  /** A name is collected exactly when some qualifying element carries it. */
  lemma {:induction false} QualifyingNamesSources(elements: seq<Element>)
    ensures forall n :: n in QualifyingNames(elements) <==>
      exists i :: 0 <= i < |elements| && Qualifies(elements[i]) && elements[i].tags.value.name.value == n
    decreases |elements|
  {
    if |elements| > 0 {
      var init := elements[..|elements| - 1];
      QualifyingNamesSources(init);
      assert forall i :: 0 <= i < |init| ==> init[i] == elements[i];
    }
  }

  /** The first position of `x` in `xs`. */
  function IndexOf(xs: seq<string>, x: string): (k: nat)
    requires x in xs
    ensures k < |xs| && xs[k] == x
    ensures forall j :: 0 <= j < k ==> xs[j] != x
  {
    if xs[0] == x then 0 else 1 + IndexOf(xs[1..], x)
  }

  lemma IndexOfExtend(xs: seq<string>, y: string, x: string)
    requires x in xs
    ensures IndexOf(xs + [y], x) == IndexOf(xs, x)
  {
    var k := IndexOf(xs, x);
    var k' := IndexOf(xs + [y], x);
    assert (xs + [y])[k] == x;
    assert k' <= k;
    assert xs[k'] == (xs + [y])[k'];
  }

  predicate NoDuplicates(xs: seq<string>) {
    forall i, j :: 0 <= i < j < |xs| ==> xs[i] != xs[j]
  }

  /** Reference definition of a `Set` filled from `xs` and read back with
      `Array.from`: each value once, at its first insertion. */
  function FirstOccurrences(xs: seq<string>): (r: seq<string>)
    ensures NoDuplicates(r)
    ensures forall x :: x in r <==> x in xs
    decreases |xs|
  {
    if |xs| == 0 then []
    else
      var init := xs[..|xs| - 1];
      var last := xs[|xs| - 1];
      var r := FirstOccurrences(init);
      if last in r then r else r + [last]
  }

  /** Every value of `r` occurs in `xs`, and `r` lists them in the order
      in which they first occur there. */
  predicate InFirstOccurrenceOrder(xs: seq<string>, r: seq<string>) {
    (forall x :: x in r ==> x in xs) &&
    forall i, j :: 0 <= i < j < |r| ==> IndexOf(xs, r[i]) < IndexOf(xs, r[j])
  }

  /** Values come out in the order of their first occurrence. */
  lemma {:induction false} FirstOccurrencesOrdered(xs: seq<string>)
    ensures InFirstOccurrenceOrder(xs, FirstOccurrences(xs))
    decreases |xs|
  {
    if |xs| > 0 {
      var init := xs[..|xs| - 1];
      var last := xs[|xs| - 1];
      var r := FirstOccurrences(init);
      FirstOccurrencesOrdered(init);
      assert xs == init + [last];
      if last !in init {
        OrderedAfterNew(init, last, r);
      } else {
        OrderedAfterRepeat(init, last, r);
      }
    }
  }

  /** Appending a value not seen before puts it last in the order. */
  lemma OrderedAfterNew(init: seq<string>, last: string, r: seq<string>)
    requires InFirstOccurrenceOrder(init, r) && last !in init
    ensures InFirstOccurrenceOrder(init + [last], r + [last])
  {
    var xs := init + [last];
    var r' := r + [last];
    assert IndexOf(xs, last) == |xs| - 1;
    forall i, j | 0 <= i < j < |r'|
      ensures IndexOf(xs, r'[i]) < IndexOf(xs, r'[j])
    {
      assert r'[i] == r[i] && r[i] in init;
      IndexOfExtend(init, last, r[i]);
      if j < |r| {
        assert r'[j] == r[j] && r[j] in init;
        IndexOfExtend(init, last, r[j]);
      }
    }
  }

  /** Appending a value seen before leaves the order of the others alone. */
  lemma OrderedAfterRepeat(init: seq<string>, last: string, r: seq<string>)
    requires InFirstOccurrenceOrder(init, r) && last in init
    ensures InFirstOccurrenceOrder(init + [last], r)
  {
    var xs := init + [last];
    forall i, j | 0 <= i < j < |r|
      ensures IndexOf(xs, r[i]) < IndexOf(xs, r[j])
    {
      IndexOfExtend(init, last, r[i]);
      IndexOfExtend(init, last, r[j]);
    }
  }

  lemma QualifyingNamesStep(elements: seq<Element>, i: nat)
    requires i < |elements|
    ensures QualifyingNames(elements[..i + 1]) == QualifyingNames(elements[..i]) +
      (if Qualifies(elements[i]) then [elements[i].tags.value.name.value] else [])
  {
    assert elements[..i + 1][..i] == elements[..i];
  }

  lemma FirstOccurrencesStep(xs: seq<string>, x: string)
    ensures FirstOccurrences(xs + [x]) == if x in xs then FirstOccurrences(xs) else FirstOccurrences(xs) + [x]
  {
    assert (xs + [x])[..|xs|] == xs;
  }

  /** The `forEach` loop filling `nameSet`, then `Array.from(nameSet)`. */
  method CollectNames(elements: seq<Element>) returns (names: seq<string>)
    ensures names == FirstOccurrences(QualifyingNames(elements))
    ensures NoDuplicates(names)
    ensures forall n :: n in names <==> n in QualifyingNames(elements)
    ensures forall i, j :: 0 <= i < j < |names| ==>
      IndexOf(QualifyingNames(elements), names[i]) < IndexOf(QualifyingNames(elements), names[j])
  {
    names := [];
    var nameSet: set<string> := {};
    assert elements[..0] == [];
    for i := 0 to |elements|
      invariant names == FirstOccurrences(QualifyingNames(elements[..i]))
      invariant forall n :: n in nameSet <==> n in names
    {
      QualifyingNamesStep(elements, i);
      ghost var seen := QualifyingNames(elements[..i]);
      var e := elements[i];
      if Qualifies(e) {
        var name := e.tags.value.name.value;
        FirstOccurrencesStep(seen, name);
        if name !in nameSet {
          names := names + [name];
        }
        nameSet := nameSet + {name};
        assert QualifyingNames(elements[..i + 1]) == seen + [name];
        assert names == FirstOccurrences(seen + [name]);
      } else {
        assert QualifyingNames(elements[..i + 1]) == seen;
      }
    }
    assert elements[..|elements|] == elements;
    FirstOccurrencesOrdered(QualifyingNames(elements));
  }

  /** `fetchStreetNames()`: the names written to `streetNames.json`, or the
      message of the error that is logged instead (nothing is written). */
  method FetchStreetNames(response: Response) returns (r: Result<seq<string>, string>)
    ensures response.Unreachable? ==> r == Failure(response.message)
    ensures response.Reply? && !response.ok ==>
      r == Failure("Overpass responded with HTTP " + Decimal.NatToString(response.status) + " - " + response.statusText)
    ensures r.Success? <==> response.Reply? && response.ok
    ensures r.Success? ==> r.value == FirstOccurrences(QualifyingNames(response.elements))
  {
    match response
    case Unreachable(message) =>
      r := Failure(message);
    case Reply(ok, status, statusText, elements) =>
      if !ok {
        r := Failure("Overpass responded with HTTP " + Decimal.NatToString(status) + " - " + statusText);
      } else {
        var names := CollectNames(elements);
        r := Success(names);
      }
  }
}

=== FILE: generate_street_geometries.dfy ===
/** The precomputation script: for each street name without a truthy entry
    in the geometry document, fetch its geometry and, on success, store it
    and write the whole document out again. */
module GenerateStreetGeometries {
  import opened Wrappers
  import opened GeoJson
  import opened Overpass
  import Decimal

  const MESSAGES := Messages("Overpass returned ", "No geometry found for ")

  /** `fetchGeometry(streetName)`: a Feature named after the street wrapping
      the MultiLineString of the kept ways. */
  function FetchGeometry(streetName: string, overpass: string -> Response): (r: Result<GeoJson, string>)
    ensures var response := overpass(Query(streetName));
      && (response.Unreachable? ==> r == Failure(response.message))
      && (response.Reply? && !response.ok ==>
            r == Failure("Overpass returned " + Decimal.NatToString(response.status)))
      && (response.Reply? && response.ok && |Ways(response.elements)| == 0 ==>
            r == Failure("No geometry found for " + streetName))
      && (r.Success? <==> response.Reply? && response.ok && |Ways(response.elements)| > 0)
      && (r.Success? ==> r.value == Feature(Some(streetName), MultiLineString(Lines(Ways(response.elements)))))
  {
    match Normalise(streetName, overpass(Query(streetName)), MESSAGES)
    case Success(lines) => Success(Feature(Some(streetName), MultiLineString(lines)))
    case Failure(e) => Failure(e)
  }

  predicate Succeeds(streetName: string, fetch: string -> Result<GeoJson, string>) {
    fetch(streetName).Success?
  }

  /** The names of `names` whose fetch succeeds. */
  function Fetchable(names: seq<string>, fetch: string -> Result<GeoJson, string>): (r: set<string>)
    ensures forall n :: n in r <==> n in names && Succeeds(n, fetch)
  {
    set n | n in names && Succeeds(n, fetch)
  }

  lemma FetchableStep(names: seq<string>, i: nat, fetch: string -> Result<GeoJson, string>)
    requires i < |names|
    ensures Fetchable(names[..i + 1], fetch) ==
      Fetchable(names[..i], fetch) + (if Succeeds(names[i], fetch) then {names[i]} else {})
  {
    assert names[..i + 1] == names[..i] + [names[i]];
  }

  /** `newer` keeps every key of `older` and leaves its truthy entries as
      they were. */
  predicate Extends(older: GeometryDoc, newer: GeometryDoc) {
    && older.Keys <= newer.Keys
    && forall k | k in older :: older[k].Some? ==> newer[k] == older[k]
  }

  /** `doc` is what the loop holds after visiting `visited`, starting from
      `initial`: the fetchable names are added, truthy entries are kept, and
      nothing else changes. */
  ghost predicate MergedFrom(initial: GeometryDoc, visited: seq<string>, doc: GeometryDoc, fetch: string -> Result<GeoJson, string>) {
    && doc.Keys == initial.Keys + Fetchable(visited, fetch)
    && Extends(initial, doc)
    && (forall k :: k in doc && !HasEntry(initial, k) && k in Fetchable(visited, fetch) ==>
          doc[k] == Some(fetch(k).value))
    && (forall k :: k in doc && !HasEntry(initial, k) && k !in Fetchable(visited, fetch) ==>
          k in initial && doc[k] == initial[k])
  }

  /** The names of `names` without a truthy entry in `initial` whose fetch
      succeeds: the ones the loop stores. */
  function NewNames(names: seq<string>, initial: GeometryDoc, fetch: string -> Result<GeoJson, string>): (r: set<string>)
    ensures forall n :: n in r <==> n in names && !HasEntry(initial, n) && Succeeds(n, fetch)
  {
    set n | n in names && !HasEntry(initial, n) && Succeeds(n, fetch)
  }

  /** `after` is `before` with exactly one more name stored: one that had no
      truthy entry, under its fetched geometry. */
  ghost predicate AddsOne(before: GeometryDoc, after: GeometryDoc, fetch: string -> Result<GeoJson, string>) {
    exists k :: !HasEntry(before, k) && Succeeds(k, fetch) && after == before[k := Some(fetch(k).value)]
  }

  /** Every document in `writes` adds one name to the one before it, the
      first to `initial`. */
  ghost predicate WriteChain(initial: GeometryDoc, writes: seq<GeometryDoc>, fetch: string -> Result<GeoJson, string>) {
    && (|writes| > 0 ==> AddsOne(initial, writes[0], fetch))
    && (forall j :: 0 < j < |writes| ==> AddsOne(writes[j - 1], writes[j], fetch))
  }

  lemma WriteChainAppend(initial: GeometryDoc, writes: seq<GeometryDoc>, doc: GeometryDoc, fetch: string -> Result<GeoJson, string>)
    requires WriteChain(initial, writes, fetch)
    requires AddsOne(if |writes| == 0 then initial else writes[|writes| - 1], doc, fetch)
    ensures WriteChain(initial, writes + [doc], fetch)
  {
    var w := writes + [doc];
    forall j | 0 < j < |w|
      ensures AddsOne(w[j - 1], w[j], fetch)
    {
      if j < |writes| {
        assert w[j - 1] == writes[j - 1] && w[j] == writes[j];
      }
    }
  }

  /** What the loop knows of the documents written so far: each extends
      `initial` and the ones before it, adds one name to its predecessor, and
      the last is the current document. */
  ghost predicate Written(initial: GeometryDoc, doc: GeometryDoc, writes: seq<GeometryDoc>, fetch: string -> Result<GeoJson, string>) {
    && (forall j :: 0 <= j < |writes| ==> Extends(initial, writes[j]))
    && (forall j, j' :: 0 <= j < j' < |writes| ==> Extends(writes[j], writes[j']))
    && (forall j :: 0 <= j < |writes| ==> Extends(writes[j], doc))
    && (|writes| > 0 ==> writes[|writes| - 1] == doc)
    && (|writes| == 0 <==> doc == initial)
    && WriteChain(initial, writes, fetch)
  }

  /** One turn of the loop body: skip a truthy entry, otherwise fetch and
      store on success. The flag says whether the document was written. */
  function MergeOne(doc: GeometryDoc, street: string, fetch: string -> Result<GeoJson, string>): (r: (GeometryDoc, bool))
    ensures HasEntry(doc, street) ==> r == (doc, false)
    ensures !HasEntry(doc, street) && !Succeeds(street, fetch) ==> r == (doc, false)
    ensures !HasEntry(doc, street) && Succeeds(street, fetch) ==>
      r == (doc[street := Some(fetch(street).value)], true)
  {
    if HasEntry(doc, street) then (doc, false)
    else
      match fetch(street)
      case Success(g) => (doc[street := Some(g)], true)
      case Failure(_) => (doc, false)
  }

  lemma MergeOneStep(initial: GeometryDoc, names: seq<string>, i: nat, doc: GeometryDoc, fetch: string -> Result<GeoJson, string>)
    requires i < |names|
    requires MergedFrom(initial, names[..i], doc, fetch)
    ensures MergedFrom(initial, names[..i + 1], MergeOne(doc, names[i], fetch).0, fetch)
    ensures Extends(doc, MergeOne(doc, names[i], fetch).0)
    ensures MergeOne(doc, names[i], fetch).1 <==> MergeOne(doc, names[i], fetch).0 != doc
    ensures MergeOne(doc, names[i], fetch).1 ==> MergeOne(doc, names[i], fetch).0 != initial
    ensures MergeOne(doc, names[i], fetch).1 ==> AddsOne(doc, MergeOne(doc, names[i], fetch).0, fetch)
    ensures MergeOne(doc, names[i], fetch).1 ==>
      names[i] !in NewNames(names[..i], initial, fetch) &&
      NewNames(names[..i + 1], initial, fetch) == NewNames(names[..i], initial, fetch) + {names[i]}
    ensures !MergeOne(doc, names[i], fetch).1 ==>
      NewNames(names[..i + 1], initial, fetch) == NewNames(names[..i], initial, fetch)
  {
    assert names[..i + 1] == names[..i] + [names[i]];
    FetchableStep(names, i, fetch);
    var street := names[i];
    if !HasEntry(doc, street) && Succeeds(street, fetch) {
      var doc' := MergeOne(doc, street, fetch).0;
      assert HasEntry(doc', street) && !HasEntry(initial, street);
    }
  }

  lemma ExtendsTransitive(a: GeometryDoc, b: GeometryDoc, c: GeometryDoc)
    requires Extends(a, b) && Extends(b, c)
    ensures Extends(a, c)
  {
  }

  /** Writing a document that adds one name keeps `Written`. */
  lemma WrittenAppend(initial: GeometryDoc, doc: GeometryDoc, writes: seq<GeometryDoc>, doc': GeometryDoc,
                      fetch: string -> Result<GeoJson, string>)
    requires Written(initial, doc, writes, fetch)
    requires Extends(doc, doc') && AddsOne(doc, doc', fetch) && doc' != initial
    ensures Written(initial, doc', writes + [doc'], fetch)
  {
    assert doc == if |writes| == 0 then initial else writes[|writes| - 1];
    WriteChainAppend(initial, writes, doc', fetch);
    var w := writes + [doc'];
    ExtendsTransitive(initial, doc, doc');
    forall j | 0 <= j < |w|
      ensures Extends(initial, w[j]) && Extends(w[j], doc')
    {
      if j < |writes| {
        assert w[j] == writes[j];
        ExtendsTransitive(writes[j], doc, doc');
      }
    }
    forall j, j' | 0 <= j < j' < |w|
      ensures Extends(w[j], w[j'])
    {
      if j' < |writes| {
        assert w[j] == writes[j] && w[j'] == writes[j'];
      }
    }
  }

  /** The loop invariant of `UpdateGeometries` survives one turn. */
  lemma LoopStep(initial: GeometryDoc, names: seq<string>, i: nat, doc: GeometryDoc, writes: seq<GeometryDoc>,
                 fetch: string -> Result<GeoJson, string>)
    requires i < |names|
    requires MergedFrom(initial, names[..i], doc, fetch)
    requires Written(initial, doc, writes, fetch)
    requires |writes| == |NewNames(names[..i], initial, fetch)|
    ensures var step := MergeOne(doc, names[i], fetch);
      var writes' := if step.1 then writes + [step.0] else writes;
      && MergedFrom(initial, names[..i + 1], step.0, fetch)
      && Written(initial, step.0, writes', fetch)
      && |writes'| == |NewNames(names[..i + 1], initial, fetch)|
  {
    MergeOneStep(initial, names, i, doc, fetch);
    var step := MergeOne(doc, names[i], fetch);
    if step.1 {
      WrittenAppend(initial, doc, writes, step.0, fetch);
    }
  }

  lemma LoopStart(initial: GeometryDoc, names: seq<string>, fetch: string -> Result<GeoJson, string>)
    ensures MergedFrom(initial, names[..0], initial, fetch)
    ensures Written(initial, initial, [], fetch)
    ensures |NewNames(names[..0], initial, fetch)| == 0
  {
    assert names[..0] == [];
    assert NewNames(names[..0], initial, fetch) == {};
  }

  /** What the loop invariant says once every name is visited. */
  lemma LoopEnd(initial: GeometryDoc, names: seq<string>, doc: GeometryDoc, writes: seq<GeometryDoc>,
                fetch: string -> Result<GeoJson, string>)
    requires MergedFrom(initial, names, doc, fetch)
    requires Written(initial, doc, writes, fetch)
    ensures forall k :: k in initial && initial[k].Some? ==> k in doc && doc[k] == initial[k]
    ensures forall i :: 0 <= i < |writes| ==> Extends(initial, writes[i])
    ensures forall i, j :: 0 <= i < j < |writes| ==> Extends(writes[i], writes[j])
    ensures |writes| > 0 ==> AddsOne(initial, writes[0], fetch)
    ensures forall i :: 0 < i < |writes| ==> AddsOne(writes[i - 1], writes[i], fetch)
  {
  }

  /** The loop of `main` over the street names, from the document read at
      start-up, with `fetch` standing for `fetchGeometry` (its failures are
      caught and the loop goes on). Returns the final document and every
      document written to disk, in order. */
  method UpdateGeometries(names: seq<string>, initial: GeometryDoc, fetch: string -> Result<GeoJson, string>)
    returns (doc: GeometryDoc, writes: seq<GeometryDoc>)
    ensures doc.Keys == initial.Keys + Fetchable(names, fetch)
    ensures forall k :: k in initial && initial[k].Some? ==> k in doc && doc[k] == initial[k]
    ensures forall k :: k in doc && !HasEntry(initial, k) && k in Fetchable(names, fetch) ==>
      doc[k] == Some(fetch(k).value)
    ensures forall k :: k in doc && !HasEntry(initial, k) && k !in Fetchable(names, fetch) ==>
      k in initial && doc[k] == initial[k]
    ensures forall i :: 0 <= i < |writes| ==> Extends(initial, writes[i])
    ensures forall i, j :: 0 <= i < j < |writes| ==> Extends(writes[i], writes[j])
    ensures |writes| > 0 ==> writes[|writes| - 1] == doc
    ensures |writes| == 0 <==> doc == initial
    ensures |writes| > 0 ==> AddsOne(initial, writes[0], fetch)
    ensures forall i :: 0 < i < |writes| ==> AddsOne(writes[i - 1], writes[i], fetch)
    ensures |writes| == |NewNames(names, initial, fetch)|
  {
    doc := initial;
    writes := [];
    LoopStart(initial, names, fetch);
    for i := 0 to |names|
      invariant MergedFrom(initial, names[..i], doc, fetch)
      invariant Written(initial, doc, writes, fetch)
      invariant |writes| == |NewNames(names[..i], initial, fetch)|
    {
      LoopStep(initial, names, i, doc, writes, fetch);
      var step := MergeOne(doc, names[i], fetch);
      if step.1 {
        writes := writes + [step.0];
      }
      doc := step.0;
    }
    assert names[..|names|] == names;
    LoopEnd(initial, names, doc, writes, fetch);
  }

  /** The output file as found at start-up. */
  datatype OutputFile = Missing | Unparseable | Contents(doc: GeometryDoc)

  /** The document the loop starts from: the empty one when the file does not
      exist; none when the file cannot be parsed, which aborts `main`. */
  function StartingDoc(output: OutputFile): (r: Option<GeometryDoc>)
    ensures output.Missing? ==> r == Some(map[])
    ensures output.Unparseable? ==> r.None?
    ensures output.Contents? ==> r == Some(output.doc)
  {
    match output
    case Missing => Some(map[])
    case Unparseable => None
    case Contents(doc) => Some(doc)
  }

  /** `main()`: the documents written to disk, with `fetch` standing for
      `fetchGeometry` against the Overpass service. From a missing file the
      last one holds exactly the fetchable names; from an existing one each
      write adds one new name to the document read, whose truthy entries stay
      as they were. */
  method Generate(names: seq<string>, output: OutputFile, fetch: string -> Result<GeoJson, string>)
    returns (writes: seq<GeometryDoc>)
    ensures output.Unparseable? ==> writes == []
    ensures output.Missing? ==>
      && (|writes| == 0 <==> Fetchable(names, fetch) == {})
      && (|writes| > 0 ==> writes[|writes| - 1].Keys == Fetchable(names, fetch))
    ensures output.Contents? ==>
      && |writes| == |NewNames(names, output.doc, fetch)|
      && (|writes| > 0 ==> AddsOne(output.doc, writes[0], fetch))
      && (forall i :: 0 < i < |writes| ==> AddsOne(writes[i - 1], writes[i], fetch))
      && (|writes| > 0 ==> writes[|writes| - 1].Keys == output.doc.Keys + Fetchable(names, fetch))
      && (forall i :: 0 <= i < |writes| ==> Extends(output.doc, writes[i]))
  {
    match StartingDoc(output)
    case None =>
      writes := [];
    case Some(initial) =>
      var doc;
      doc, writes := UpdateGeometries(names, initial, fetch);
      if output.Missing? {
        var fetched := Fetchable(names, fetch);
        assert doc.Keys == fetched;
        if fetched != {} {
          var n :| n in fetched;
          assert n in doc;
        }
      }
  }
}

=== FILE: geojson.dfy ===
/** The geometry values that flow between the modules: GeoJSON objects with
    `[lon, lat]` positions (as produced from Overpass and stored in the
    precomputed document) and Leaflet's `{lat, lng}` points. */
module GeoJson {
  import opened Wrappers

  /** A coordinate value. The program only moves coordinates around, it never
      computes with them, so they are kept abstract as mathematical reals. */
  type Coord = real

  /** A two-element array `[a, b]`. GeoJSON positions are `[lon, lat]`;
      Leaflet polylines take `[lat, lon]`. */
  datatype Pair = Pair(first: Coord, second: Coord)

  /** Leaflet's `{lat, lng}` object (a map click, a marker, a snapped point). */
  datatype LatLng = LatLng(lat: Coord, lng: Coord)

  /** The GeoJSON values the program builds or reads: `OtherType` stands for
      any object whose `type` is none of the three handled names. A
      `Feature`'s properties are either `{}` (Turf's `multiLineString`) or
      `{name}` (the precomputation script). */
  datatype GeoJson =
    | LineString(coordinates: seq<Pair>)
    | MultiLineString(lines: seq<seq<Pair>>)
    | Feature(name: Option<string>, geometry: GeoJson)
    | OtherType(typeName: string)

  /** The precomputed geometry document: street name to geometry. `None` is a
      falsy JSON value (`null`, `false`, `0`, `""`) stored under the key, which
      every reader treats like a missing key. */
  type GeometryDoc = map<string, Option<GeoJson>>

  /** `doc[name]` is truthy. */
  predicate HasEntry(doc: GeometryDoc, name: string) {
    name in doc && doc[name].Some?
  }

  /** `([a, b]) => [b, a]`. */
  function Swap(p: Pair): (r: Pair)
    ensures r.first == p.second && r.second == p.first
  {
    Pair(p.second, p.first)
  }

  /** `line.map(([lon, lat]) => [lat, lon])`. */
  function SwapLine(line: seq<Pair>): (r: seq<Pair>)
    ensures |r| == |line|
    ensures forall i :: 0 <= i < |line| ==> r[i] == Swap(line[i])
  {
    seq(|line|, i requires 0 <= i < |line| => Swap(line[i]))
  }

  /** `lines.map(line => line.map(([lon, lat]) => [lat, lon]))`. */
  function SwapLines(lines: seq<seq<Pair>>): (r: seq<seq<Pair>>)
    ensures |r| == |lines|
    ensures forall i :: 0 <= i < |lines| ==> r[i] == SwapLine(lines[i])
  {
    seq(|lines|, i requires 0 <= i < |lines| => SwapLine(lines[i]))
  }

  /** Swapping twice gives the lines back: the conversion loses nothing. */
  lemma SwapLinesInvolutive(lines: seq<seq<Pair>>)
    ensures SwapLines(SwapLines(lines)) == lines
  {
    var r := SwapLines(SwapLines(lines));
    forall i | 0 <= i < |lines|
      ensures r[i] == lines[i]
    {
      assert SwapLine(SwapLine(lines[i])) == lines[i];
    }
  }

  /** Turf's `multiLineString(coords)`: a Feature with empty properties
      wrapping the MultiLineString, without validation of the coordinates. */
  function TurfMultiLineString(lines: seq<seq<Pair>>): (r: GeoJson)
    ensures r.Feature? && r.name.None? && r.geometry == MultiLineString(lines)
  {
    Feature(None, MultiLineString(lines))
  }
}

=== FILE: mapview.dfy ===
/** The map component's drawing rules: which polylines the street layer
    holds for a geometry prop, and when the guess marker and the dashed
    connector exist. Leaflet itself is not modelled; a layer is represented
    by the data it would draw. */
module MapView {
  import opened Wrappers
  import opened GeoJson

  /** `if (geom.type === "Feature") geom = geom.geometry`: one level only. */
  function Unwrap(g: GeoJson): (r: GeoJson)
    ensures g.Feature? ==> r == g.geometry
    ensures !g.Feature? ==> r == g
  {
    if g.Feature? then g.geometry else g
  }

  predicate IsLineGeometry(g: GeoJson) {
    g.LineString? || g.MultiLineString?
  }

  /** The `[lon, lat]` lines of a line geometry: one line for a LineString,
      its lines for a MultiLineString. */
  function PositionLines(g: GeoJson): (lines: seq<seq<Pair>>)
    requires IsLineGeometry(g)
  {
    if g.LineString? then [g.coordinates] else g.lines
  }

  /** The polylines the street effect draws for a `streetGeometry` prop, as
      `[lat, lon]` lines; `None` when it draws nothing (a null prop or an
      unsupported type). */
  function LinesToDraw(streetGeometry: Option<GeoJson>): (r: Option<seq<seq<Pair>>>)
    ensures streetGeometry.None? ==> r.None?
    ensures streetGeometry.Some? ==> (r.Some? <==> IsLineGeometry(Unwrap(streetGeometry.value)))
    ensures r.Some? && Unwrap(streetGeometry.value).LineString? ==> |r.value| == 1
    ensures r.Some? && Unwrap(streetGeometry.value).MultiLineString? ==>
      |r.value| == |Unwrap(streetGeometry.value).lines|
    ensures r.Some? ==> SwapLines(r.value) == PositionLines(Unwrap(streetGeometry.value))
  {
    match streetGeometry
    case None => None
    case Some(g) =>
      var geom := Unwrap(g);
      if IsLineGeometry(geom) then
        var lines := PositionLines(geom);
        SwapLinesInvolutive(lines);
        Some(SwapLines(lines))
      else None
  }

  /** Every drawn vertex is the swapped `[lon, lat]` vertex at the same line
      and position: count and order are preserved. */
  lemma DrawnVerticesAreSwapped(g: GeoJson, i: nat, j: nat)
    requires LinesToDraw(Some(g)).Some?
    requires i < |PositionLines(Unwrap(g))| && j < |PositionLines(Unwrap(g))[i]|
    ensures var drawn := LinesToDraw(Some(g)).value;
      i < |drawn| && |drawn[i]| == |PositionLines(Unwrap(g))[i]| &&
      drawn[i][j] == Swap(PositionLines(Unwrap(g))[i][j])
  {
  }

  datatype Connector = Connector(from: LatLng, to: LatLng)

  /** The layers on the map: the street polylines, the guess marker and the
      dashed connector from the guess to the snapped point. */
  datatype Layers = Layers(street: Option<seq<seq<Pair>>>, marker: Option<LatLng>, connector: Option<Connector>)

  datatype Props = Props(streetGeometry: Option<GeoJson>, userClick: Option<LatLng>, closestPoint: Option<LatLng>)

  /** The street effect: the old layer is removed, then the new one drawn if
      the prop is drawable. */
  function DrawStreet(layers: Layers, streetGeometry: Option<GeoJson>): (r: Layers)
    ensures r.street == LinesToDraw(streetGeometry)
    ensures r.marker == layers.marker && r.connector == layers.connector
  {
    layers.(street := LinesToDraw(streetGeometry))
  }

  /** The marker effect: both old layers are removed; a marker is added at
      the click, and a connector when the snapped point is known too. */
  function DrawGuess(layers: Layers, userClick: Option<LatLng>, closestPoint: Option<LatLng>): (r: Layers)
    ensures r.marker == userClick
    ensures r.connector.Some? <==> userClick.Some? && closestPoint.Some?
    ensures r.connector.Some? ==> r.connector.value == Connector(userClick.value, closestPoint.value)
    ensures r.street == layers.street
  {
    var connector := if userClick.Some? && closestPoint.Some? then Some(Connector(userClick.value, closestPoint.value)) else None;
    layers.(marker := userClick, connector := connector)
  }

  /** The layers show exactly what the props ask for. */
  predicate Shows(layers: Layers, props: Props) {
    && layers.street == LinesToDraw(props.streetGeometry)
    && layers.marker == props.userClick
    && (layers.connector.Some? <==> props.userClick.Some? && props.closestPoint.Some?)
    && (layers.connector.Some? ==> layers.connector == Some(Connector(props.userClick.value, props.closestPoint.value)))
  }

  /** A re-render: each effect runs only when one of its dependencies
      changed. */
  function Render(layers: Layers, before: Props, after: Props): (r: Layers)
    ensures after.streetGeometry == before.streetGeometry ==> r.street == layers.street
    ensures after.streetGeometry != before.streetGeometry ==> r.street == LinesToDraw(after.streetGeometry)
    ensures after.userClick == before.userClick && after.closestPoint == before.closestPoint ==>
      r.marker == layers.marker && r.connector == layers.connector
    ensures after.userClick != before.userClick || after.closestPoint != before.closestPoint ==>
      r.marker == after.userClick
  {
    var l := if after.streetGeometry != before.streetGeometry then DrawStreet(layers, after.streetGeometry) else layers;
    if after.userClick != before.userClick || after.closestPoint != before.closestPoint then
      DrawGuess(l, after.userClick, after.closestPoint)
    else l
  }

  /** Whatever was drawn before, after a render the map shows the new props:
      old layers never linger. */
  lemma RenderShowsProps(layers: Layers, before: Props, after: Props)
    requires Shows(layers, before)
    ensures Shows(Render(layers, before, after), after)
  {
  }
}

=== FILE: overpass.dfy ===
/** The Overpass API as the program sees it: the query it posts for a street,
    the JSON reply, and the normalisation every copy of the geometry fetcher
    applies to that reply (keep the ways that carry a geometry, fail when
    none is left, turn each way into a line of `[lon, lat]` positions). */
module Overpass {
  import opened Wrappers
  import opened GeoJson
  import Decimal

  /** The administrative area every query is scoped to. */
  const AREA_NAME := "Ciudad Aut\U{F3}noma de Buenos Aires"

  const QUERY_HEAD := "\n      [out:json];\n      area[name=\"" + AREA_NAME +
    "\"]->.searchArea;\n      way(area.searchArea)[\"name\"=\""
  const QUERY_TAIL := "\"];\n      out geom;\n    "

  /** The request body posted for a street; the name is interpolated without
      escaping. */
  function Query(streetName: string): (q: string)
    ensures |q| == |QUERY_HEAD| + |streetName| + |QUERY_TAIL|
    ensures q[|QUERY_HEAD|..|QUERY_HEAD| + |streetName|] == streetName
    ensures q[..|QUERY_HEAD|] == QUERY_HEAD
    ensures q[|QUERY_HEAD| + |streetName|..] == QUERY_TAIL
  {
    QUERY_HEAD + streetName + QUERY_TAIL
  }

  /** `part` occurs in `text` starting at index `i`. */
  predicate OccursAt(text: string, part: string, i: int) {
    0 <= i <= |text| - |part| && text[i..i + |part|] == part
  }

  /** The fixed area name sits inside every query, whatever the street. */
  lemma QueryNamesArea(streetName: string)
    ensures exists i :: OccursAt(Query(streetName), AREA_NAME, i)
  {
    var q := Query(streetName);
    var k := |"\n      [out:json];\n      area[name=\""|;
    assert q[k..k + |AREA_NAME|] == AREA_NAME;
    assert OccursAt(q, AREA_NAME, k);
  }

  /** Different streets are never sent the same query. */
  lemma QueryInjective(a: string, b: string)
    requires Query(a) == Query(b)
    ensures a == b
  {
    assert |a| == |b|;
  }

  /** One vertex of a way's `geometry` array (`out geom`). */
  datatype Point = Point(lat: Coord, lon: Coord)

  datatype Tags = Tags(name: Option<string>)

  /** One entry of `data.elements`: its `type`, its `geometry` array when the
      property is present, and its `tags` when present. */
  datatype Element = Element(kind: string, geometry: Option<seq<Point>>, tags: Option<Tags>)

  /** What `fetch` and `res.json()` give: either they throw (network failure,
      body that is not JSON) with a message, or a reply with `ok`, `status`,
      `statusText` and the parsed `elements`. */
  datatype Response =
    | Unreachable(message: string)
    | Reply(ok: bool, status: nat, statusText: string, elements: seq<Element>)

  /** `el.type === "way" && el.geometry`: an array, even an empty one, is
      truthy. */
  predicate IsWayWithGeometry(e: Element) {
    e.kind == "way" && e.geometry.Some?
  }

  /** `data.elements.filter(el => el.type === "way" && el.geometry)`. */
  function Ways(elements: seq<Element>): (ways: seq<Element>)
    ensures forall w :: w in ways <==> w in elements && IsWayWithGeometry(w)
    ensures forall i :: 0 <= i < |ways| ==> IsWayWithGeometry(ways[i])
    ensures forall w :: multiset(ways)[w] == if IsWayWithGeometry(w) then multiset(elements)[w] else 0
    ensures |ways| <= |elements|
  {
    if |elements| == 0 then []
    else
      assert elements == [elements[0]] + elements[1..];
      (if IsWayWithGeometry(elements[0]) then [elements[0]] else []) + Ways(elements[1..])
  }

  /** Filtering distributes over concatenation, so the kept ways keep their
      original order. */
  lemma {:induction false} WaysAppend(a: seq<Element>, b: seq<Element>)
    ensures Ways(a + b) == Ways(a) + Ways(b)
    decreases |a|
  {
    if |a| == 0 {
      assert a + b == b;
    } else {
      var head := if IsWayWithGeometry(a[0]) then [a[0]] else [];
      assert (a + b)[0] == a[0] && (a + b)[1..] == a[1..] + b;
      assert Ways(a + b) == head + Ways(a[1..] + b);
      WaysAppend(a[1..], b);
      ConcatAssoc(Ways(a + b), Ways(a), head, Ways(a[1..] + b), Ways(a[1..]), Ways(b));
    }
  }

  lemma ConcatAssoc<T>(u: seq<T>, v: seq<T>, h: seq<T>, w: seq<T>, x: seq<T>, y: seq<T>)
    requires u == h + w && w == x + y && v == h + x
    ensures u == v + y
  {
  }

  /** `pt => [pt.lon, pt.lat]`. */
  function LonLat(pt: Point): Pair {
    Pair(pt.lon, pt.lat)
  }

  /** `way.geometry.map(pt => [pt.lon, pt.lat])`. */
  function WayLine(points: seq<Point>): (line: seq<Pair>)
    ensures |line| == |points|
    ensures forall i :: 0 <= i < |points| ==> line[i].first == points[i].lon && line[i].second == points[i].lat
  {
    seq(|points|, i requires 0 <= i < |points| => LonLat(points[i]))
  }

  /** `ways.map(way => way.geometry.map(...))`. */
  function Lines(ways: seq<Element>): (lines: seq<seq<Pair>>)
    requires forall i :: 0 <= i < |ways| ==> ways[i].geometry.Some?
    ensures |lines| == |ways|
    ensures forall i :: 0 <= i < |ways| ==> lines[i] == WayLine(ways[i].geometry.value)
  {
    seq(|ways|, i requires 0 <= i < |ways| => WayLine(ways[i].geometry.value))
  }

  /** The way's vertices read back from a `[lon, lat]` line. */
  function LinePoints(line: seq<Pair>): (points: seq<Point>)
    ensures |points| == |line|
  {
    seq(|line|, i requires 0 <= i < |line| => Point(line[i].second, line[i].first))
  }

  /** A line keeps every vertex of its way, in order: reading it back gives
      the way's geometry. */
  lemma WayLineLosesNothing(points: seq<Point>)
    ensures LinePoints(WayLine(points)) == points
  {
  }

  /** The two error texts of one copy of the fetcher: the prefix put before
      the HTTP status, and the prefix put before the street name when no way
      has a geometry. */
  datatype Messages = Messages(httpPrefix: string, notFoundPrefix: string)

  /** The common core of every geometry fetcher: the `[lon, lat]` lines of
      the kept ways, or the message of the error it throws. */
  function Normalise(streetName: string, response: Response, messages: Messages): (r: Result<seq<seq<Pair>>, string>)
    ensures response.Unreachable? ==> r == Failure(response.message)
    ensures response.Reply? && !response.ok ==>
      r == Failure(messages.httpPrefix + Decimal.NatToString(response.status))
    ensures r.Success? <==> response.Reply? && response.ok && |Ways(response.elements)| > 0
    ensures response.Reply? && response.ok && |Ways(response.elements)| == 0 ==>
      r == Failure(messages.notFoundPrefix + streetName)
    ensures r.Success? ==> r.value == Lines(Ways(response.elements)) && |r.value| >= 1
  {
    match response
    case Unreachable(message) => Failure(message)
    case Reply(ok, status, _, elements) =>
      if !ok then Failure(messages.httpPrefix + Decimal.NatToString(status))
      else
        var ways := Ways(elements);
        if |ways| == 0 then Failure(messages.notFoundPrefix + streetName)
        else Success(Lines(ways))
  }

  /** Every kept way comes back as one line, in order, and every line can be
      read back into exactly the vertices of its way. */
  lemma NormalisedLinesMatchWays(streetName: string, response: Response, messages: Messages)
    requires Normalise(streetName, response, messages).Success?
    ensures var lines := Normalise(streetName, response, messages).value;
      var ways := Ways(response.elements);
      |lines| == |ways| >= 1 &&
      forall i :: 0 <= i < |lines| ==> LinePoints(lines[i]) == ways[i].geometry.value
  {
    var lines := Normalise(streetName, response, messages).value;
    var ways := Ways(response.elements);
    forall i | 0 <= i < |lines|
      ensures LinePoints(lines[i]) == ways[i].geometry.value
    {
      WayLineLosesNothing(ways[i].geometry.value);
    }
  }

  /** An HTTP failure's message carries the status, which can be read back
      from it. */
  lemma HttpErrorCarriesStatus(streetName: string, response: Response, messages: Messages)
    requires response.Reply? && !response.ok
    ensures var e := Normalise(streetName, response, messages).error;
      |e| > |messages.httpPrefix| && e[..|messages.httpPrefix|] == messages.httpPrefix &&
      Decimal.AllDigits(e[|messages.httpPrefix|..]) &&
      Decimal.ParseNat(e[|messages.httpPrefix|..]) == response.status
  {
    var e := Normalise(streetName, response, messages).error;
    assert e[|messages.httpPrefix|..] == Decimal.NatToString(response.status);
    Decimal.ParseNatToString(response.status);
  }
}

=== FILE: scoreboard.dfy ===
/** The score board: street names shortened by replacing the whole word
    "Avenida" with "Av.", and the numbered rows it lists. */
module ScoreBoard {
  import opened Wrappers
  import Decimal

  const AVENIDA := "Avenida"
  const AV := "Av."

  /** A character of the regular-expression class `\w` (no `u` flag):
      ASCII letters, digits and the underscore. */
  predicate IsWordChar(c: char) {
    ('A' <= c <= 'Z') || ('a' <= c <= 'z') || ('0' <= c <= '9') || c == '_'
  }

  /** `s` starts with "Avenida" and a word boundary follows it: the end of
      `s` or a non-word character. */
  predicate AvenidaEndsWord(s: string) {
    |s| >= 7 && s[..7] == AVENIDA && (|s| == 7 || !IsWordChar(s[7]))
  }

  /** `s[i..]` is a whole-word occurrence of "Avenida": `/\bAvenida\b/`
      matches at index `i`. */
  predicate WholeWordAt(s: string, i: int) {
    0 <= i < |s| && (i == 0 || !IsWordChar(s[i - 1])) && AvenidaEndsWord(s[i..])
  }

  predicate HasWholeWord(s: string) {
    exists i | 0 <= i < |s| :: WholeWordAt(s, i)
  }

  /** The global replacement scan: `afterWord` says whether the character
      just before `s` is a word character, which decides the leading `\b`. */
  function ShortenFrom(s: string, afterWord: bool): (r: string)
    ensures |r| <= |s|
    ensures |r| == 0 <==> |s| == 0
    decreases |s|
  {
    if |s| == 0 then ""
    else if !afterWord && AvenidaEndsWord(s) then AV + ShortenFrom(s[7..], true)
    else [s[0]] + ShortenFrom(s[1..], IsWordChar(s[0]))
  }

  /** `name.replace(/\bAvenida\b/g, "Av.")`. */
  function ShortenName(name: string): (r: string)
    ensures !HasWholeWord(r)
    ensures |r| <= |name|
  {
    ShortenFromClean(name, false);
    CleanIffNoWholeWord(ShortenFrom(name, false));
    ShortenFrom(name, false)
  }

  /** No whole-word "Avenida" starts anywhere in `s`, given what precedes it. */
  predicate Clean(s: string, afterWord: bool)
    decreases |s|
  {
    |s| == 0 || (!(!afterWord && AvenidaEndsWord(s)) && Clean(s[1..], IsWordChar(s[0])))
  }

  lemma {:induction false} CleanIsFixedPoint(s: string, afterWord: bool)
    requires Clean(s, afterWord)
    ensures ShortenFrom(s, afterWord) == s
    decreases |s|
  {
    if |s| > 0 {
      CleanIsFixedPoint(s[1..], IsWordChar(s[0]));
      assert s == [s[0]] + s[1..];
    }
  }

  /** What precedes a string cannot matter when it does not start with 'A'. */
  lemma CleanIgnoresContext(s: string)
    requires |s| == 0 || s[0] != 'A'
    ensures Clean(s, true) == Clean(s, false)
  {
  }

  /** After a word character, a run of word characters is copied verbatim. */
  lemma {:induction false} CopiesWordPrefix(t: string, p: string)
    requires |p| <= |ShortenFrom(t, true)| && ShortenFrom(t, true)[..|p|] == p
    requires forall i :: 0 <= i < |p| ==> IsWordChar(p[i])
    ensures |p| <= |t| && t[..|p|] == p
    ensures ShortenFrom(t, true) == p + ShortenFrom(t[|p|..], true)
    decreases |p|
  {
    if |p| > 0 {
      var r := ShortenFrom(t, true);
      ShortenFromKeeps(t, true);
      PrefixOfCons(r, t[0], ShortenFrom(t[1..], IsWordChar(t[0])), p);
      var r' := ShortenFrom(t[1..], true);
      CopiesWordPrefix(t[1..], p[1..]);
      SliceOfTail(t, |p|);
      ConsSplit(p[0], r, p, r', p[1..], ShortenFrom(t[|p|..], true));
    } else {
      assert t[..0] == p;
    }
  }

  /** A non-empty prefix of `[c] + r` starts with `c` and continues with a
      prefix of `r`. */
  lemma PrefixOfCons(s: string, c: char, r: string, p: string)
    requires s == [c] + r && 0 < |p| <= |s| && s[..|p|] == p
    ensures c == p[0] && |p| - 1 <= |r| && r[..|p| - 1] == p[1..]
  {
    assert s[..|p|][0] == c;
    assert s[..|p|][1..] == r[..|p| - 1];
  }

  lemma SliceOfTail(t: string, n: nat)
    requires 0 < n <= |t|
    ensures t[1..][n - 1..] == t[n..] && t[..n] == [t[0]] + t[1..][..n - 1]
  {
  }

  /** The scan leaves no whole-word "Avenida" behind. */
  lemma {:induction false} ShortenFromClean(s: string, afterWord: bool)
    ensures Clean(ShortenFrom(s, afterWord), afterWord)
    decreases |s|
  {
    if |s| == 0 {
    } else if !afterWord && AvenidaEndsWord(s) {
      var rest := ShortenFrom(s[7..], true);
      ShortenFromClean(s[7..], true);
      if |s| > 7 {
        assert rest[0] == s[7];
      }
      CleanIgnoresContext(rest);
      var r := AV + rest;
      assert r[2] == '.';
      assert r[1..][1..][1..] == rest;
    } else {
      var w := IsWordChar(s[0]);
      var rest := ShortenFrom(s[1..], w);
      ShortenFromClean(s[1..], w);
      var r := [s[0]] + rest;
      assert r[1..] == rest;
      CopyStartsAvenidaOnlyIfSourceDoes(s);
    }
  }

  /** Copying the first character cannot create a whole-word "Avenida" at
      the start that the source did not have. */
  lemma CopyStartsAvenidaOnlyIfSourceDoes(s: string)
    requires |s| > 0
    ensures AvenidaEndsWord([s[0]] + ShortenFrom(s[1..], IsWordChar(s[0]))) ==> AvenidaEndsWord(s)
  {
    var w := IsWordChar(s[0]);
    var rest := ShortenFrom(s[1..], w);
    var r := [s[0]] + rest;
    if AvenidaEndsWord(r) {
      var venida := "venida";
      assert r[..7] == AVENIDA;
      assert r[0] == r[..7][0] == 'A';
      assert s[0] == 'A' && w;
      assert rest == r[1..];
      assert rest[..6] == r[..7][1..] == venida;
      CopiesWordPrefix(s[1..], venida);
      var tail := s[1..][6..];
      assert rest == venida + ShortenFrom(tail, true);
      assert s[..7] == AVENIDA;
      if |r| == 7 {
        assert |tail| == 0;
      } else {
        assert rest[6] == tail[0];
        assert s[7] == tail[0];
      }
    }
  }

  /** Whether a `\b` holds just before index `i` of `s`, given what
      precedes `s`. */
  predicate BoundaryBefore(s: string, i: int, afterWord: bool)
    requires 0 <= i <= |s|
  {
    if i == 0 then !afterWord else !IsWordChar(s[i - 1])
  }

  predicate NoMatchFrom(s: string, afterWord: bool) {
    forall i :: 0 <= i < |s| && BoundaryBefore(s, i, afterWord) ==> !AvenidaEndsWord(s[i..])
  }

  /** The recursive and the positional readings of "no whole-word Avenida"
      agree. */
  lemma {:induction false} CleanIffNoMatchFrom(s: string, afterWord: bool)
    ensures Clean(s, afterWord) <==> NoMatchFrom(s, afterWord)
    decreases |s|
  {
    if |s| > 0 {
      var t := s[1..];
      var w := IsWordChar(s[0]);
      CleanIffNoMatchFrom(t, w);
      forall j | 0 <= j < |t|
        ensures BoundaryBefore(t, j, w) == BoundaryBefore(s, j + 1, afterWord)
        ensures t[j..] == s[j + 1..]
      {
      }
      if NoMatchFrom(s, afterWord) {
        assert s[0..] == s;
        assert BoundaryBefore(s, 0, afterWord) == !afterWord;
        forall j | 0 <= j < |t| && BoundaryBefore(t, j, w)
          ensures !AvenidaEndsWord(t[j..])
        {
          assert BoundaryBefore(s, j + 1, afterWord);
        }
      }
      if Clean(s, afterWord) {
        forall i | 0 <= i < |s| && BoundaryBefore(s, i, afterWord)
          ensures !AvenidaEndsWord(s[i..])
        {
          if i == 0 {
            assert s[0..] == s;
          } else {
            assert BoundaryBefore(t, i - 1, w);
          }
        }
      }
    }
  }

  lemma CleanIffNoWholeWord(s: string)
    ensures Clean(s, false) <==> !HasWholeWord(s)
  {
    CleanIffNoMatchFrom(s, false);
    if !Clean(s, false) {
      var i :| 0 <= i < |s| && BoundaryBefore(s, i, false) && AvenidaEndsWord(s[i..]);
      assert WholeWordAt(s, i);
    }
    if HasWholeWord(s) {
      var i :| 0 <= i < |s| && WholeWordAt(s, i);
      assert BoundaryBefore(s, i, false);
    }
  }

  /** A name is returned unchanged exactly when it has no whole-word
      "Avenida"; in particular "Avenidas" or "Avenida_" stay as they are. */
  lemma ShortenNameUnchangedIff(name: string)
    ensures ShortenName(name) == name <==> !HasWholeWord(name)
  {
    CleanIffNoWholeWord(name);
    if !HasWholeWord(name) {
      CleanIsFixedPoint(name, false);
    }
  }

  /** Shortening an already shortened name changes nothing. */
  lemma ShortenNameIdempotent(name: string)
    ensures ShortenName(ShortenName(name)) == ShortenName(name)
  {
    ShortenNameUnchangedIff(ShortenName(name));
  }

  /** The letters "Avenida" appear at index `i`, whole word or not. */
  predicate AvenidaAt(s: string, i: int) {
    0 <= i <= |s| - 7 && s[i..i + 7] == AVENIDA
  }

  /** A name without the letters "Avenida" anywhere is returned unchanged. */
  lemma NoAvenidaUnchanged(name: string)
    requires forall i :: !AvenidaAt(name, i)
    ensures ShortenName(name) == name
  {
    forall i | 0 <= i < |name|
      ensures !WholeWordAt(name, i)
    {
      if |name[i..]| >= 7 {
        assert name[i..][..7] == name[i..i + 7];
        assert !AvenidaAt(name, i);
      }
    }
    ShortenNameUnchangedIff(name);
  }

  /** A whole-word "Avenida" is replaced: a leading one becomes "Av." and
      the rest of the name is shortened on its own. */
  lemma LeadingAvenidaShortened(rest: string)
    requires |rest| == 0 || !IsWordChar(rest[0])
    ensures ShortenName(AVENIDA + rest) == AV + ShortenName(rest)
  {
    var s := AVENIDA + rest;
    assert s[..7] == AVENIDA;
    assert s[7..] == rest;
    if |rest| > 0 {
      assert !AvenidaEndsWord(rest) by {
        if |rest| >= 7 {
          assert rest[..7][0] == rest[0];
        }
      }
      assert ShortenFrom(rest, true) == [rest[0]] + ShortenFrom(rest[1..], IsWordChar(rest[0]));
      assert ShortenFrom(rest, false) == [rest[0]] + ShortenFrom(rest[1..], IsWordChar(rest[0]));
    }
  }

  /** When `a` ends in a non-word character, no match can straddle the end
      of `a`: a match at the start of `a + b` is one at the start of `a`. */
  lemma AvenidaEndsWordPrefix(a: string, b: string)
    requires |a| > 0 && !IsWordChar(a[|a| - 1])
    ensures AvenidaEndsWord(a + b) <==> AvenidaEndsWord(a)
  {
    var s := a + b;
    if AvenidaEndsWord(s) {
      assert forall k :: 0 <= k < 7 ==> IsWordChar(s[k]) by {
        assert s[..7] == AVENIDA;
        assert forall k :: 0 <= k < 7 ==> s[k] == AVENIDA[k];
      }
      assert s[|a| - 1] == a[|a| - 1];
      assert !IsWordChar(s[|a| - 1]);
      assert |a| > 7;
      assert s[..7] == a[..7];
      assert s[7] == a[7];
    }
    if AvenidaEndsWord(a) {
      assert forall k :: 0 <= k < 7 ==> IsWordChar(a[k]) by {
        assert forall k :: 0 <= k < 7 ==> a[k] == AVENIDA[k];
      }
      assert |a| > 7;
      assert s[..7] == a[..7];
      assert s[7] == a[7];
    }
  }

  /** A match followed by more text: "Avenida" is all word characters, so a
      string ending in a non-word character is longer than it. */
  lemma AvenidaEndsWordLonger(a: string)
    requires AvenidaEndsWord(a) && !IsWordChar(a[|a| - 1])
    ensures |a| > 7
  {
    assert a[..7][6] == a[6];
    assert IsWordChar(a[6]);
  }

  /** The scan over `a + b` is the scan over `a` followed by the scan over
      `b`, when `a` ends in a non-word character. */
  lemma {:induction false} ShortenFromSplit(a: string, b: string, afterWord: bool)
    requires |a| > 0 && !IsWordChar(a[|a| - 1])
    ensures ShortenFrom(a + b, afterWord) == ShortenFrom(a, afterWord) + ShortenFrom(b, false)
    decreases |a|
  {
    AvenidaEndsWordPrefix(a, b);
    if !afterWord && AvenidaEndsWord(a) {
      AvenidaEndsWordLonger(a);
      ShortenFromSplit(a[7..], b, true);
      SplitAtMatch(a, b);
    } else if |a| == 1 {
      var s := a + b;
      assert s[0] == a[0] && s[1..] == b;
      assert ShortenFrom(a, afterWord) == [a[0]] + ShortenFrom(a[1..], false) == [a[0]];
    } else {
      var s := a + b;
      assert s[0] == a[0] && s[1..] == a[1..] + b;
      ShortenFromKeeps(s, afterWord);
      ShortenFromKeeps(a, afterWord);
      ShortenFromSplit(a[1..], b, IsWordChar(a[0]));
      ConsSplit(a[0], ShortenFrom(s, afterWord), ShortenFrom(a, afterWord), ShortenFrom(s[1..], IsWordChar(a[0])),
                ShortenFrom(a[1..], IsWordChar(a[0])), ShortenFrom(b, false));
    }
  }

  /** A kept first character commutes with splitting the rest. */
  lemma ConsSplit(c: char, u: string, v: string, w: string, x: string, y: string)
    requires u == [c] + w && w == x + y && v == [c] + x
    ensures u == v + y
  {
  }

  /** The step of `ShortenFromSplit` where `a` starts with a match. */
  lemma SplitAtMatch(a: string, b: string)
    requires |a| > 7 && AvenidaEndsWord(a) && AvenidaEndsWord(a + b)
    requires ShortenFrom(a[7..] + b, true) == ShortenFrom(a[7..], true) + ShortenFrom(b, false)
    ensures ShortenFrom(a + b, false) == ShortenFrom(a, false) + ShortenFrom(b, false)
  {
    var s := a + b;
    assert s[7..] == a[7..] + b;
    calc {
      ShortenFrom(s, false);
      AV + ShortenFrom(a[7..] + b, true);
      AV + (ShortenFrom(a[7..], true) + ShortenFrom(b, false));
      (AV + ShortenFrom(a[7..], true)) + ShortenFrom(b, false);
      ShortenFrom(a, false) + ShortenFrom(b, false);
    }
  }

  /** One step of the scan that keeps the first character. */
  lemma ShortenFromKeeps(s: string, afterWord: bool)
    requires |s| > 0 && !(!afterWord && AvenidaEndsWord(s))
    ensures ShortenFrom(s, afterWord) == [s[0]] + ShortenFrom(s[1..], IsWordChar(s[0]))
  {
  }

  /** Shortening works piecewise across a non-word character: every
      whole-word "Avenida" is replaced where it stands, and every other
      character is kept. */
  lemma ShortenNameSplit(a: string, b: string)
    requires |a| == 0 || !IsWordChar(a[|a| - 1])
    ensures ShortenName(a + b) == ShortenName(a) + ShortenName(b)
  {
    if |a| == 0 {
      assert a + b == b;
    } else {
      ShortenFromSplit(a, b, false);
    }
  }

  /** An "Avenida" that ends the name after a non-word character is replaced
      too: "Calle Avenida" becomes "Calle Av.". */
  lemma TrailingAvenidaShortened(before: string)
    requires |before| > 0 && !IsWordChar(before[|before| - 1])
    ensures ShortenName(before + AVENIDA) == ShortenName(before) + AV
  {
    ShortenNameSplit(before, AVENIDA);
    LeadingAvenidaShortened("");
    assert AVENIDA + "" == AVENIDA;
  }

  /** A guessed round: the street name and its error in tenths of a km. */
  datatype Entry = Entry(name: string, errorKm: nat)

  /** The round in progress: its name and the error text shown for it. */
  datatype Current = Current(name: string, errorText: string)

  datatype Row = Row(index: nat, name: string, error: string)

  /** The `rounds` list: one row per guessed entry, then one for the current
      street when there is one. */
  function Rows(guessed: seq<Entry>, current: Option<Current>): (rows: seq<Row>)
    ensures |rows| == |guessed| + (if current.Some? then 1 else 0)
    ensures forall i :: 0 <= i < |rows| ==> rows[i].index == i + 1
    ensures forall i :: 0 <= i < |guessed| ==>
      rows[i].name == ShortenName(guessed[i].name) &&
      rows[i].error == Decimal.TenthsToString(guessed[i].errorKm) + "km"
    ensures current.Some? ==>
      rows[|guessed|].name == ShortenName(current.value.name) &&
      rows[|guessed|].error == current.value.errorText
  {
    var done := seq(|guessed|, i requires 0 <= i < |guessed| =>
      Row(i + 1, ShortenName(guessed[i].name), Decimal.TenthsToString(guessed[i].errorKm) + "km"));
    match current
    case None => done
    case Some(c) => done + [Row(|done| + 1, ShortenName(c.name), c.errorText)]
  }

  /** A guessed row's error text gives back the recorded error. */
  lemma RowErrorRecoversEntry(guessed: seq<Entry>, current: Option<Current>, i: nat)
    requires i < |guessed|
    ensures var e := Rows(guessed, current)[i].error;
      |e| >= 3 && e[|e| - 2..] == "km" &&
      Decimal.ParseTenths(e[..|e| - 2]) == Some(guessed[i].errorKm)
  {
    var e := Rows(guessed, current)[i].error;
    var t := Decimal.TenthsToString(guessed[i].errorKm);
    assert e[..|e| - 2] == t;
    Decimal.TenthsRoundTrip(guessed[i].errorKm);
  }
}

=== FILE: test_street_map.dfy ===
/** The test map component's helpers: its own copy of the geometry fetcher,
    which returns a bare MultiLineString, and the converter from GeoJSON
    lines to Leaflet `[lat, lon]` lines. */
module TestStreetMap {
  import opened Wrappers
  import opened GeoJson
  import opened Overpass
  import MapView
  import Decimal

  const MESSAGES := Messages("Overpass responded with HTTP ", "No geometry found for street: ")

  function GetStreetGeometry(streetName: string, overpass: string -> Response): (r: Result<GeoJson, string>)
    ensures var response := overpass(Query(streetName));
      && (response.Unreachable? ==> r == Failure(response.message))
      && (response.Reply? && !response.ok ==>
            r == Failure("Overpass responded with HTTP " + Decimal.NatToString(response.status)))
      && (response.Reply? && response.ok && |Ways(response.elements)| == 0 ==>
            r == Failure("No geometry found for street: " + streetName))
      && (r.Success? <==> response.Reply? && response.ok && |Ways(response.elements)| > 0)
      && (r.Success? ==> r.value == MultiLineString(Lines(Ways(response.elements))))
  {
    match Normalise(streetName, overpass(Query(streetName)), MESSAGES)
    case Success(lines) => Success(MultiLineString(lines))
    case Failure(e) => Failure(e)
  }

  /** `convertMultiLineToLatLng(geometry)`: no Feature unwrapping. */
  function ConvertMultiLineToLatLng(geometry: Option<GeoJson>): (r: seq<seq<Pair>>)
    ensures geometry.None? ==> r == []
    ensures geometry.Some? && !MapView.IsLineGeometry(geometry.value) ==> r == []
    ensures geometry.Some? && geometry.value.LineString? ==>
      |r| == 1 && |r[0]| == |geometry.value.coordinates| && SwapLine(r[0]) == geometry.value.coordinates
    ensures geometry.Some? && geometry.value.MultiLineString? ==>
      |r| == |geometry.value.lines| && SwapLines(r) == geometry.value.lines
  {
    match geometry
    case Some(LineString(coordinates)) =>
      assert SwapLine(SwapLine(coordinates)) == coordinates;
      [SwapLine(coordinates)]
    case Some(MultiLineString(lines)) =>
      SwapLinesInvolutive(lines);
      SwapLines(lines)
    case _ => []
  }

  /** On a bare LineString or MultiLineString the converter draws what the
      map component draws. */
  lemma ConverterAgreesWithMapView(g: GeoJson)
    requires MapView.IsLineGeometry(g)
    ensures MapView.LinesToDraw(Some(g)) == Some(ConvertMultiLineToLatLng(Some(g)))
  {
    var drawn := MapView.LinesToDraw(Some(g)).value;
    var converted := ConvertMultiLineToLatLng(Some(g));
    SwapLinesInvolutive(drawn);
    SwapLinesInvolutive(converted);
    if g.LineString? {
      assert SwapLines(converted) == [g.coordinates];
    }
  }

  /** A Feature wrapper, as Turf and the precomputation script produce, is
      not unwrapped here and converts to no line at all. */
  lemma ConverterDropsFeatures(name: Option<string>, inner: GeoJson)
    ensures ConvertMultiLineToLatLng(Some(Feature(name, inner))) == []
  {
  }

  /** What this component fetches it can draw: one `[lat, lon]` line per
      kept way, each reading back to that way's vertices. */
  lemma FetchedGeometryConverts(streetName: string, overpass: string -> Response)
    requires GetStreetGeometry(streetName, overpass).Success?
    ensures var ways := Ways(overpass(Query(streetName)).elements);
      var drawn := ConvertMultiLineToLatLng(Some(GetStreetGeometry(streetName, overpass).value));
      |drawn| == |ways| >= 1 &&
      forall i :: 0 <= i < |drawn| ==> LinePoints(SwapLine(drawn[i])) == ways[i].geometry.value
  {
    var response := overpass(Query(streetName));
    var lines := Normalise(streetName, response, MESSAGES).value;
    var drawn := ConvertMultiLineToLatLng(Some(GetStreetGeometry(streetName, overpass).value));
    NormalisedLinesMatchWays(streetName, response, MESSAGES);
    assert SwapLines(drawn) == lines;
    forall i | 0 <= i < |drawn|
      ensures SwapLine(drawn[i]) == lines[i]
    {
    }
  }
}

=== FILE: wrappers.dfy ===
/** Failure-carrying values shared by every module of the model: `Option`
    stands for a JavaScript value that may be `null`/`undefined`, `Result`
    for a computation that may throw an `Error` with a message. */
module Wrappers {

  datatype Option<+T> = None | Some(value: T)

  datatype Result<+R, +E> = Success(value: R) | Failure(error: E)
}
